=== FILE: README.md ===
# Python_topics tutorial logic, modelled in Dafny

Python_topics is a set of standalone Python lesson scripts. This project models the
pieces of them that hold real sequential logic, each lifted out of its console loop
and stated as pure functions on immutable values:

- the to-do list project: add, remove and display on a list of task strings, kept free of duplicates;
- the blog project: create, update, delete and view on a list of `{title, content}` posts,
  addressed by the number the view prints, with Python's negative list indexing;
- the control-flow lesson: the age-band and grade ladders, `check_status`,
  `get_animal_sound`, `point_location` and `user_info`;
- the two error-handling lessons: `process_value`, the digit check, `withdraw`, `divide`,
  `validate_age`, `demo_custom_exception`, and the ValueError / ZeroDivisionError split of
  reading an integer and dividing 10 by it;
- the functional-programming lesson: `map`, `filter`, `reduce`, `partial(power, exponent=2)`,
  `fibonacci` with `lru_cache`, and `accumulate`;
- the advanced-data-structures lesson: the list and dict comprehensions, `dict.update`,
  and `deque` operations.

A raised exception is a `Result.Err` (or `Outcome.Fail`) value carrying the exception and
its data; a normal return is `Ok`. Menu actions return the new state together with the
lines they print. Files:

| file | module | models |
|---|---|---|
| results.dfy | Results | Option / Result / Outcome |
| text.dfy | Text | `str(int)`, `str.isdigit`, `int(text)`, with round trips |
| numbering.dfy | Numbering | the "{k}. text" lines of the to-do display and the blog view |
| todo_list.dfy | TodoList | Simple_To-Do_List.py |
| blog.dfy | Blog | Blog_Platform.py |
| control_flow.dfy | ControlFlow | 2_Control_Flow.py |
| exceptions.dfy | Exceptions | 5_Error_and_Exception_Handling.py |
| basic_errors.dfy | BasicErrors | 5_Basic_Error_Handling.py |
| functional.dfy | Functional | 3_Functional_Programming.py |
| comprehensions.dfy | Comprehensions | list comprehensions of 1_Advanced_Data_Structures.py |
| pydict.dfy | PyDict | dict operations and dict comprehensions of 1_Advanced_Data_Structures.py |
| deque.dfy | Deque | deque operations of 1_Advanced_Data_Structures.py |

A Python dict is modelled by its items in insertion order, so that item assignment,
`update` and the swap comprehension keep the order Python prints. A deque is its
elements from left to right. Python's `/` on numbers is modelled as exact division on
`real`.

## Model

| member | source | states |
|---|---|---|
| Text.ParseInt | Python_topics/1_Beginner/5_Basic_Error_Handling.py:29 | `int(text)` succeeds exactly on digits with an optional sign, and the value of a digit string is its decimal value |
| Text.IntToDecimalRoundTrip | Python_topics/2_Intermediate/5_Error_and_Exception_Handling.py:12 | the decimal text an f-string prints for an int reads back as that int |
| Numbering.LabelRoundTrip | Python_topics/1_Beginner/Suggested_Projects/Simple_To-Do_List.py:15 | a printed "{k}. text" line determines both its number and its text |
| TodoList.DisplayFrom | Python_topics/1_Beginner/Suggested_Projects/Simple_To-Do_List.py:13-16 | one display line per task, line i carrying number start + i and task i |
| TodoList.DisplayNumbersInOrder | Python_topics/1_Beginner/Suggested_Projects/Simple_To-Do_List.py:12-16 | display numbers the tasks 1..n in list order: line i reads back as (i + 1, task i) |
| TodoList.AddTask | Python_topics/1_Beginner/Suggested_Projects/Simple_To-Do_List.py:17-25 | after an add the task is listed, and the last printed line is always "{task} added" |
| TodoList.AddAbsentAppends | Python_topics/1_Beginner/Suggested_Projects/Simple_To-Do_List.py:19-25 | adding an absent task appends it at the end: one more task, the earlier ones unchanged |
| TodoList.AddPresentUnchanged | Python_topics/1_Beginner/Suggested_Projects/Simple_To-Do_List.py:19-25 | adding a listed task leaves the list unchanged and prints "already there" then "{task} added" |
| TodoList.AddIdempotent | Python_topics/1_Beginner/Suggested_Projects/Simple_To-Do_List.py:19-22 | adding twice gives the same list as adding once |
| TodoList.AddPreservesNoDuplicates | Python_topics/1_Beginner/Suggested_Projects/Simple_To-Do_List.py:19-20 | add keeps the no-duplicate-tasks invariant |
| TodoList.IndexOf | Python_topics/1_Beginner/Suggested_Projects/Simple_To-Do_List.py:29 | `list.index` finds the first occurrence of the task |
| TodoList.RemoveTask | Python_topics/1_Beginner/Suggested_Projects/Simple_To-Do_List.py:26-34 | a listed task shortens the list by one and prints "{task} removed"; an absent one leaves the list unchanged and prints "already not there" |
| TodoList.RemoveDeletesFirstOccurrence | Python_topics/1_Beginner/Suggested_Projects/Simple_To-Do_List.py:28-29 | removing a listed task deletes exactly its first occurrence; the other tasks keep their order |
| TodoList.RemoveAbsentUnchanged | Python_topics/1_Beginner/Suggested_Projects/Simple_To-Do_List.py:28-34 | removing an absent task leaves the list unchanged and prints "already not there" |
| TodoList.RemovePreservesNoDuplicates | Python_topics/1_Beginner/Suggested_Projects/Simple_To-Do_List.py:28-29 | remove keeps the no-duplicates invariant, and with no duplicates the removed task is gone |
| TodoList.RemoveUndoesAdd | Python_topics/1_Beginner/Suggested_Projects/Simple_To-Do_List.py:19-29 | removing a freshly added task restores the original list |
| TodoList.Apply | Python_topics/1_Beginner/Suggested_Projects/Simple_To-Do_List.py:10-38 | display and unrecognised choices never change the list |
| TodoList.RunPreservesNoDuplicates | Python_topics/1_Beginner/Suggested_Projects/Simple_To-Do_List.py:10-38 | any sequence of menu choices from a list without duplicates keeps it without duplicates |
| Blog.ResolveIndex | Python_topics/2_Intermediate/Suggested_Projects/Blog_Platform.py:30 | a list index is legal exactly in [-n, n); a non-negative one counts from the front and a negative one from the end |
| Blog.UserNumberResolution | Python_topics/2_Intermediate/Suggested_Projects/Blog_Platform.py:27-30 | number k names index k - 1: 1..n in order, 1 - n..0 from the end (0 is the last post), others nothing |
| Blog.ViewFrom | Python_topics/2_Intermediate/Suggested_Projects/Blog_Platform.py:13-16 | three lines per post: separator, numbered title, content |
| Blog.ViewNumbersInOrder | Python_topics/2_Intermediate/Suggested_Projects/Blog_Platform.py:11-17 | the view has 3n + 2 lines and numbers the posts from 1 in list order |
| Blog.CreateAppends | Python_topics/2_Intermediate/Suggested_Projects/Blog_Platform.py:20-24 | create appends exactly one post with the given title and content and keeps the earlier posts |
| Blog.UpdatePost | Python_topics/2_Intermediate/Suggested_Projects/Blog_Platform.py:26-36 | update never changes the number of posts |
| Blog.UpdateTitleOnly | Python_topics/2_Intermediate/Suggested_Projects/Blog_Platform.py:30-32 | field "title" changes that post's title only; its content and every other post are unchanged |
| Blog.UpdateOtherFieldChangesContent | Python_topics/2_Intermediate/Suggested_Projects/Blog_Platform.py:33-34 | any other field string changes that post's content only |
| Blog.UpdateOutOfRangeUnchanged | Python_topics/2_Intermediate/Suggested_Projects/Blog_Platform.py:28-36 | a number outside the list leaves the posts unchanged and prints "No such post" |
| Blog.DeletePost | Python_topics/2_Intermediate/Suggested_Projects/Blog_Platform.py:38-40 | delete succeeds exactly on a legal number, removing one post; otherwise an uncaught IndexError |
| Blog.DeleteUndoesCreate | Python_topics/2_Intermediate/Suggested_Projects/Blog_Platform.py:20-40 | deleting the newest post, by number 0 or by its own number, restores the posts as they were before it was created |
| Blog.DeleteRemovesOne | Python_topics/2_Intermediate/Suggested_Projects/Blog_Platform.py:38-40 | delete removes exactly the named post and the others keep their relative order |
| Blog.Apply | Python_topics/2_Intermediate/Suggested_Projects/Blog_Platform.py:50-61 | a menu entry fails only on deleting a missing post, and changes the post count by +1 for create, -1 for delete, 0 otherwise |
| ControlFlow.AgeBandsPartition | Python_topics/1_Beginner/2_Control_Flow.py:15-20 | the bands under 18, 18..59 and 60+ partition the integers, each with its own message |
| ControlFlow.AgeBandMonotone | Python_topics/1_Beginner/2_Control_Flow.py:15-20 | an older age never falls in a younger band |
| ControlFlow.GradeBands | Python_topics/1_Beginner/2_Control_Flow.py:24-30 | A exactly from 90, B exactly for 80..89, C exactly below 80 |
| ControlFlow.GradeMonotone | Python_topics/1_Beginner/2_Control_Flow.py:24-30 | a higher score never earns a lower grade |
| ControlFlow.CheckStatusAgreesWithRfc9110 | Python_topics/1_Beginner/2_Control_Flow.py:119-130 | 200, 400, 404, 500 give their RFC 9110 reason phrases; every other code, and only those, gives "Unknown Status Code" |
| ControlFlow.AnimalSoundCases | Python_topics/1_Beginner/2_Control_Flow.py:137-146 | "Bark" exactly for dog and wolf, "Meow" for cat, "Moo" for cow, "Unknown Sound" for anything else |
| ControlFlow.OriginPrecedesAxes | Python_topics/1_Beginner/2_Control_Flow.py:155-160 | (0, 0) is "Origin" and not an axis answer, because its case comes first |
| ControlFlow.PointLocationCases | Python_topics/1_Beginner/2_Control_Flow.py:153-162 | origin, X axis, Y axis and plane answers each hold exactly for their pairs, and the printed coordinate reads back |
| ControlFlow.NotAPairIsUnknown | Python_topics/1_Beginner/2_Control_Flow.py:163-164 | a subject that is not a pair is "Unknown location" |
| ControlFlow.UserInfoSucceedsIffBothKeys | Python_topics/1_Beginner/2_Control_Flow.py:173-178 | the answer is "Invalid user data" unless the subject is a mapping with both "name" and "age", and then it reports the name and the age: "User {name} is {age} years old" |
| ControlFlow.UserInfoIgnoresExtraKeys | Python_topics/1_Beginner/2_Control_Flow.py:175-176 | keys other than "name" and "age" never change the answer |
| Exceptions.ProcessValue | Python_topics/2_Intermediate/5_Error_and_Exception_Handling.py:15-19 | raises NegativeValueError with the value exactly for negative inputs; otherwise returns twice the input, never negative |
| Exceptions.NegativeMessageCarriesValue | Python_topics/2_Intermediate/5_Error_and_Exception_Handling.py:8-12 | the message is "Negative values are not allowed: " followed by text that reads back as the value |
| Exceptions.CheckNumeric | Python_topics/2_Intermediate/5_Error_and_Exception_Handling.py:36-39 | input that is not all digits, and only such input, raises InvalidInputError carrying that input |
| Exceptions.InvalidInputMessage | Python_topics/2_Intermediate/5_Error_and_Exception_Handling.py:28-33 | the error's message is "Expected a numeric value: " followed by the input |
| Exceptions.Withdraw | Python_topics/2_Intermediate/5_Error_and_Exception_Handling.py:85-89 | fails exactly when amount > balance; otherwise the new balance is non-negative and adds back to the old one |
| Exceptions.WithdrawWholeBalance | Python_topics/2_Intermediate/5_Error_and_Exception_Handling.py:87-89 | withdrawing the whole balance is allowed and leaves 0 |
| Exceptions.Divide | Python_topics/2_Intermediate/5_Error_and_Exception_Handling.py:108-111 | the assertion fails exactly on a zero divisor; otherwise the quotient times the divisor is the dividend |
| BasicErrors.ParseIntInput | Python_topics/1_Beginner/5_Basic_Error_Handling.py:10-15 | reading an int raises ValueError exactly when the text is not an optionally signed digit string |
| BasicErrors.TrueDivide | Python_topics/1_Beginner/5_Basic_Error_Handling.py:18-22 | division raises ZeroDivisionError exactly for a zero divisor; otherwise quotient times divisor is the dividend |
| BasicErrors.TenOver | Python_topics/1_Beginner/5_Basic_Error_Handling.py:27-34 | ValueError exactly for non-integer text, ZeroDivisionError exactly for text reading 0, else 10 divided by the number |
| BasicErrors.TenOverDecimal | Python_topics/1_Beginner/5_Basic_Error_Handling.py:29-34 | for the text of an int x the division fails exactly when x = 0, and then as ZeroDivisionError |
| BasicErrors.ValidateAge | Python_topics/1_Beginner/5_Basic_Error_Handling.py:43-46 | ValueError exactly for negative ages; 0 and above pass and the printed line ends with the age |
| BasicErrors.DemoCustomException | Python_topics/1_Beginner/5_Basic_Error_Handling.py:59-62 | CustomError exactly when the value is "error"; every other value passes and is printed |
| Functional.Map | Python_topics/2_Intermediate/3_Functional_Programming.py:10-15 | `map` keeps the length and applies the function to every element in place |
| Functional.MapSquareExample | Python_topics/2_Intermediate/3_Functional_Programming.py:14-15 | mapping `square` over [1..5] gives [1, 4, 9, 16, 25] |
| Functional.Filter | Python_topics/2_Intermediate/3_Functional_Programming.py:28-33 | `filter` yields only passing elements, as a subsequence of the input |
| Functional.FilterKeepsExactlyThePassing | Python_topics/2_Intermediate/3_Functional_Programming.py:28-33 | every passing element is kept as often as it occurs and every failing one is dropped |
| Functional.FilterOddExample | Python_topics/2_Intermediate/3_Functional_Programming.py:32-33 | filtering [1..5] with `is_odd` gives [1, 3, 5] |
| Functional.Reduce | Python_topics/2_Intermediate/3_Functional_Programming.py:48-53 | `reduce` without an initial value fails exactly on an empty sequence |
| Functional.ReduceMultiplyIsProduct | Python_topics/2_Intermediate/3_Functional_Programming.py:48-53 | `reduce(multiply, s)` is the product of a non-empty s |
| Functional.ReduceMultiplyExample | Python_topics/2_Intermediate/3_Functional_Programming.py:52-53 | `reduce(multiply, [1, 2, 3, 4])` is 24 |
| Functional.PowerOfTwo | Python_topics/2_Intermediate/3_Functional_Programming.py:67-72 | `partial(power, exponent=2)` agrees with squaring |
| Functional.FibCached | Python_topics/2_Intermediate/3_Functional_Programming.py:75-80 | the cached computation returns the plain recursive value, keeps every cache entry correct and caches its argument |
| Functional.FibTable | Python_topics/2_Intermediate/3_Functional_Programming.py:76-80 | the bottom-up memo table returns the plain recursive value |
| Functional.FibTen | Python_topics/2_Intermediate/3_Functional_Programming.py:82 | `fibonacci(10)` is 55 |
| Functional.FibMonotone | Python_topics/2_Intermediate/3_Functional_Programming.py:78-80 | from 0 on the Fibonacci numbers are non-negative and non-decreasing |
| Functional.Accumulate | Python_topics/2_Intermediate/3_Functional_Programming.py:115-118 | `accumulate` gives the prefix sums, same length, and successive differences give back the input |
| Functional.AccumulateExample | Python_topics/2_Intermediate/3_Functional_Programming.py:116-118 | the prefix sums of [1, 2, 3, 4] are [1, 3, 6, 10] |
| Comprehensions.SquaresOfEvensIsMapOfFilter | Python_topics/2_Intermediate/1_Advanced_Data_Structures.py:10-12 | the comprehension equals mapping `square` over the even elements, in order |
| Comprehensions.SquaresOfEvensMembers | Python_topics/2_Intermediate/1_Advanced_Data_Structures.py:11 | a value occurs in the result exactly when it is the square of an even element |
| Comprehensions.SquaresOfEvensExample | Python_topics/2_Intermediate/1_Advanced_Data_Structures.py:10-12 | [1..6] gives [4, 16, 36] |
| Comprehensions.FlattenLength | Python_topics/2_Intermediate/1_Advanced_Data_Structures.py:15-17 | the flattened length is the sum of the row lengths |
| Comprehensions.FlattenAppend | Python_topics/2_Intermediate/1_Advanced_Data_Structures.py:16 | flattening distributes over concatenation of row blocks, so row order and item order are kept |
| Comprehensions.FlattenExample | Python_topics/2_Intermediate/1_Advanced_Data_Structures.py:15-17 | [[1, 2], [3, 4], [5, 6]] flattens to [1..6] |
| PyDict.GetOr | Python_topics/2_Intermediate/1_Advanced_Data_Structures.py:39-41 | `get(k, default)` returns a value stored under k when k is present and the default otherwise |
| PyDict.SetGet | Python_topics/2_Intermediate/1_Advanced_Data_Structures.py:45 | after assigning a key it maps to the new value and every other key is unchanged |
| PyDict.SetKeys | Python_topics/2_Intermediate/1_Advanced_Data_Structures.py:45-46 | assignment keeps an existing key's position and appends a new key at the end |
| PyDict.UpdateGet | Python_topics/2_Intermediate/1_Advanced_Data_Structures.py:43-46 | after `update` the other dict's keys take its values and all other keys keep theirs |
| PyDict.UpdateKeys | Python_topics/2_Intermediate/1_Advanced_Data_Structures.py:43-46 | `update` keeps the old keys first and in order, adds exactly the new ones, and never duplicates a key |
| PyDict.SwapIsFlip | Python_topics/2_Intermediate/1_Advanced_Data_Structures.py:61-64 | with distinct values the swap comprehension flips every item in place |
| PyDict.SwapInverse | Python_topics/2_Intermediate/1_Advanced_Data_Structures.py:61-64 | with distinct values the swapped dict is the inverse map, and swapping twice restores the dict |
| PyDict.SwapExample | Python_topics/2_Intermediate/1_Advanced_Data_Structures.py:62-64 | {"a": 1, "b": 2, "c": 3} swaps to {1: "a", 2: "b", 3: "c"} |
| PyDict.SquaresDictSpec | Python_topics/2_Intermediate/1_Advanced_Data_Structures.py:57-59 | `{x: x**2 for x in range(n)}` maps exactly 0..n-1, each to its square, in key order |
| Deque.Pop | Python_topics/2_Intermediate/1_Advanced_Data_Structures.py:83-85 | `pop` fails exactly on an empty deque |
| Deque.PopLeft | Python_topics/2_Intermediate/1_Advanced_Data_Structures.py:86-87 | `popleft` fails exactly on an empty deque |
| Deque.PopUndoesAppend | Python_topics/2_Intermediate/1_Advanced_Data_Structures.py:78-85 | `pop` returns what `append` added and restores the deque, and conversely |
| Deque.PopLeftUndoesAppendLeft | Python_topics/2_Intermediate/1_Advanced_Data_Structures.py:78-87 | `popleft` returns what `appendleft` added and restores the deque, and conversely |
| Deque.WrapIsMod | Python_topics/2_Intermediate/1_Advanced_Data_Structures.py:89-94 | the rotation offset is the remainder Python's `%` gives for a positive length |
| Deque.RotateIndex | Python_topics/2_Intermediate/1_Advanced_Data_Structures.py:89-94 | after `rotate(n)` position j holds the element from position (j - n) mod len |
| Deque.RotateOneMovesLastToFront | Python_topics/2_Intermediate/1_Advanced_Data_Structures.py:91-92 | `rotate(1)` moves the last element to the front |
| Deque.RotateCompose | Python_topics/2_Intermediate/1_Advanced_Data_Structures.py:89-94 | rotating by a then by b is rotating by a + b |
| Deque.RotateInverse | Python_topics/2_Intermediate/1_Advanced_Data_Structures.py:91-94 | `rotate(n)` then `rotate(-n)` is the identity |
| Deque.ExtendIsRepeatedAppend | Python_topics/2_Intermediate/1_Advanced_Data_Structures.py:96-98 | `extend` gives the deque that appending each element in turn gives |
| Deque.ExtendLeftReverses | Python_topics/2_Intermediate/1_Advanced_Data_Structures.py:96-100 | `extendleft` prepends the elements in reversed order |
| Deque.LessonExample | Python_topics/2_Intermediate/1_Advanced_Data_Structures.py:74-100 | the lesson's sequence of deque operations yields the printed deques |

## Left out

- Reading and writing the task list and the blog posts as JSON files: file I/O through a library serialiser.
- The interactive menus, `input()` prompts and `print` calls: each menu action is modelled as a transition returning the printed lines; the console loop is modelled as a fold over commands only for the to-do list.
- Blog: `int(input(...))` in update and delete raises an uncaught ValueError on non-numeric text before any index is used; the model takes the post number as an int.
- Blog.Apply: the blog's menu loop itself is not folded over a command sequence; only one pass is modelled.
- Text.ParseInt: accepts ASCII digits with an optional sign only; Python's `int()` also accepts surrounding whitespace, `_` separators and non-ASCII decimal digits, and `str.isdigit` accepts further Unicode digit characters.
- BasicErrors.ParseIntInput: the ValueError message quotes the input with single quotes; Python uses `repr`, which escapes quotes and special characters.
- Floating point: true division `/` is exact `real` division, so rounding of the printed float is not modelled.
- BasicErrors.TrueDivide: an int quotient beyond the float range raises OverflowError in Python (`10**400 / 1`); the model's exact division returns the quotient, because floats are modelled as unbounded reals.
- Exceptions.Divide: an int quotient beyond the float range raises OverflowError in Python; the model returns the quotient, as for TrueDivide. Under `python -O` the `assert` is removed and a zero divisor raises ZeroDivisionError instead of AssertionError; the model follows the default interpreter, where asserts run.
- Ages, scores, balances, points and the numbers the functional lesson maps, filters and reduces are ints, and `divide` takes reals; the lessons' functions also accept floats and other types, which are not modelled. Deque and dict entries are of any type.
- Functional.PowerOfTwo: `power` takes a non-negative exponent; a negative exponent yields a float in Python and is not modelled.
- Int/str digit limit and recursion depth: Python 3.11 (and 3.10.7) makes `int(text)`, `str(i)` and f-strings raise ValueError for ints of more than 4300 decimal digits, and a cold `fibonacci(n)` raises RecursionError around n = 1000; the model's integers and recursion are unbounded. Affected: Text.ParseInt, Text.IntToDecimalRoundTrip, BasicErrors.ParseIntInput, BasicErrors.TenOver, BasicErrors.ValidateAge, Exceptions.ProcessValue, Exceptions.NegativeMessageCarriesValue, ControlFlow.PointLocationCases, Functional.FibCached.
- Functional.FibCached: the cache never evicts; `lru_cache(maxsize=128)` eviction only matters beyond 128 distinct arguments.
- `rotate` is modelled by its result, a rotation by n mod len; CPython's in-place block moves are not modelled, because they are not observable.
- Deque.Rotate: CPython converts the count to a C `Py_ssize_t` and raises OverflowError for n outside [-2^63, 2^63); the model rotates by every int, so Deque.RotateIndex, Deque.RotateCompose and Deque.RotateInverse also hold for counts (or sums a + b) that Python rejects. Likewise Blog.DeletePost: for a number k with k - 1 outside that range, `del` raises IndexError "cannot fit 'int' into an index-sized integer", while the model's IndexError carries "list assignment index out of range".
- Deque.RotateIndex: holds for every int count, including counts outside the `Py_ssize_t` range that Python rejects (see Deque.Rotate above).
- Deque.RotateCompose: equates rotations whose counts or sum may lie outside the `Py_ssize_t` range that Python rejects (see Deque.Rotate above).
- Deque.RotateInverse: holds also for counts outside the `Py_ssize_t` range that Python rejects (see Deque.Rotate above).
- Blog.DeletePost: an index outside the `Py_ssize_t` range gets the out-of-range message instead of Python's "cannot fit 'int' into an index-sized integer" (see Deque.Rotate above).
- PyDict.Swap: no lemma describes the result when values repeat (the last key with a value wins); only the distinct-values case is stated.
- `itertools.count`, `cycle`, `repeat`, `permutations`, `combinations`, generator expressions and `dict.keys/values/items` views: library behaviour or direct uses of built-in collections.
- Logging, exception re-raise and `finally` cleanup in the error-handling lessons: effects with no value to model.

=== FILE: basic_errors.dfy ===
/** The basic error-handling lesson: reading an integer can raise ValueError,
    dividing by it can raise ZeroDivisionError, and two functions raise
    exceptions on purpose. True division is modelled as an exact `real`. */
module BasicErrors {
  import opened Results
  import opened Text

  datatype Error =
    | ValueError(message: string)
    | ZeroDivisionError(message: string)
    | CustomError(message: string)

  /** `int(text)`; the message is the one Python gives, with the input
      quoted by single quotes. */
  function ParseIntInput(text: string): (r: Result<int, Error>)
    ensures r.Ok? <==> ParseInt(text).Some?
    ensures r.Ok? ==> r.value == ParseInt(text).value
  {
    match ParseInt(text)
    case Some(n) => Ok(n)
    case None => Err(ValueError("invalid literal for int() with base 10: '" + text + "'"))
  }

  /** `a / b` on ints: the exact quotient, or ZeroDivisionError. */
  function TrueDivide(a: int, b: int): (r: Result<real, Error>)
    ensures r.Err? <==> b == 0
    ensures r.Ok? ==> r.value * (b as real) == a as real
  {
    if b == 0 then Err(ZeroDivisionError("division by zero")) else Ok(a as real / b as real)
  }

  /** Reading x and printing `10 / x`: a non-integer input is a ValueError, and
      only a well-formed zero is a ZeroDivisionError. */
  function TenOver(text: string): (r: Result<real, Error>)
    ensures r.Err? && r.error.ValueError? <==> ParseInt(text).None?
    ensures r.Err? && r.error.ZeroDivisionError? <==> ParseInt(text) == Some(0)
    ensures r.Ok? ==> ParseInt(text).Some? && r.value * (ParseInt(text).value as real) == 10.0
  {
    match ParseIntInput(text)
    case Err(e) => Err(e)
    case Ok(x) => TrueDivide(10, x)
  }

  const ValidPrefix: string := "Age is valid: "

  /** `validate_age`: negative ages raise ValueError; any other age is
      accepted and the line it prints is returned. */
  function ValidateAge(age: int): (r: Result<string, Error>)
    ensures r.Err? <==> age < 0
    ensures r.Err? ==> r.error == ValueError("Age cannot be negative!")
    ensures r.Ok? ==> StartsWith(r.value, ValidPrefix) && ParseInt(r.value[|ValidPrefix|..]) == Some(age)
  {
    if age < 0 then Err(ValueError("Age cannot be negative!"))
    else
      var line := ValidPrefix + IntToDecimal(age);
      assert line[..|ValidPrefix|] == ValidPrefix;
      assert line[|ValidPrefix|..] == IntToDecimal(age);
      IntToDecimalRoundTrip(age);
      Ok(line)
  }

  /** `demo_custom_exception`: the value "error" raises CustomError; any other
      value is accepted and the line it prints is returned. */
  function DemoCustomException(value: string): (r: Result<string, Error>)
    ensures r.Err? <==> value == "error"
    ensures r.Err? ==> r.error == CustomError("Custom error triggered!")
    ensures r.Ok? ==> r.value == "Value is: " + value
  {
    if value == "error" then Err(CustomError("Custom error triggered!"))
    else Ok("Value is: " + value)
  }

  /** Every decimal integer text divides 10 unless it is zero; the two
      failures are told apart by the exception class. */
  lemma TenOverDecimal(x: int)
    ensures TenOver(IntToDecimal(x)).Err? <==> x == 0
    ensures x == 0 ==> TenOver(IntToDecimal(x)).error.ZeroDivisionError?
    ensures x != 0 ==> TenOver(IntToDecimal(x)).value == 10.0 / x as real
  {
    IntToDecimalRoundTrip(x);
  }

}

=== FILE: blog.dfy ===
/** The blog script: a list of posts, each a record with a title and a
    content, with a menu to view, create, update and delete posts. Posts are
    addressed by the number the view prints (counting from 1), which the
    script turns into a Python list index by subtracting one; Python's
    negative indices are legal, so number 0 names the last post. Loading and
    saving the posts as JSON is not modelled. */
module Blog {
  import opened Results
  import opened Numbering

  datatype Post = Post(title: string, content: string)

  type Posts = seq<Post>

  /** The exception the delete branch lets escape. */
  datatype Error = IndexError(message: string)

  /** The posts after one menu action and the lines that action prints. */
  datatype Step = Step(posts: Posts, output: seq<string>)

  /** The menu entries 1..5; other numbers match no case and do nothing. */
  datatype Command =
    | ViewAll
    | Create(title: string, content: string)
    | Update(number: int, field: string, text: string)
    | Delete(number: int)
    | Stop
    | Unrecognized

  const Separator: string := "----------------------------------------"

  /** Python list indexing: an index is legal when it lies in [-n, n), and a
      negative one counts back from the end. */
  function ResolveIndex(i: int, n: nat): (r: Option<nat>)
    ensures r.Some? <==> -(n as int) <= i < n
    ensures r.Some? ==> r.value < n
    ensures r.Some? && i >= 0 ==> r.value == i
    ensures r.Some? && i < 0 ==> r.value == n + i
  {
    if 0 <= i < n then Some(i)
    else if -(n as int) <= i < 0 then Some(i + n)
    else None
  }

  /** The list index the script computes from the number the user types. */
  function UserIndex(number: int): int {
    number - 1
  }

  /** The view lines for the posts, numbered from `index` on. */
  function ViewFrom(posts: Posts, index: nat): (lines: seq<string>)
    ensures |lines| == 3 * |posts|
    ensures forall i :: 0 <= i < |posts| ==>
              && lines[3 * i] == Separator
              && lines[3 * i + 1] == Label(index + i, posts[i].title)
              && lines[3 * i + 2] == posts[i].content
  {
    if |posts| == 0 then []
    else
      var rest := ViewFrom(posts[1..], index + 1);
      var lines := [Separator, Label(index, posts[0].title), posts[0].content] + rest;
      assert forall i :: 1 <= i < |posts| ==> lines[3 * i] == rest[3 * (i - 1)];
      lines
  }

  /** Menu entry 1: a blank line, then a separator, the numbered title and the
      content of each post, then a closing separator. */
  function View(posts: Posts): seq<string> {
    ["\n"] + ViewFrom(posts, 1) + [Separator + "\n"]
  }

  /** Menu entry 2: append a new post. */
  function CreatePost(posts: Posts, title: string, content: string): Posts {
    posts + [Post(title, content)]
  }

  /** Menu entry 3: change the title when the field typed is "title" and the
      content for any other field; an out-of-range number raises IndexError,
      which is caught and reported. */
  function UpdatePost(posts: Posts, number: int, field: string, text: string): (s: Step)
    ensures |s.posts| == |posts|
  {
    match ResolveIndex(UserIndex(number), |posts|)
    case None => Step(posts, ["No such post"])
    case Some(j) =>
      var p := posts[j];
      var p' := if field == "title" then p.(title := text) else p.(content := text);
      Step(posts[j := p'], [])
  }

  /** Menu entry 4: delete the numbered post; an out-of-range number raises an
      IndexError that nothing catches. */
  function DeletePost(posts: Posts, number: int): (r: Result<Posts, Error>)
    ensures r.Ok? <==> ResolveIndex(UserIndex(number), |posts|).Some?
    ensures r.Ok? ==> |r.value| == |posts| - 1
  {
    match ResolveIndex(UserIndex(number), |posts|)
    case None => Err(IndexError("list assignment index out of range"))
    case Some(j) => Ok(posts[..j] + posts[j + 1..])
  }

  /** One pass of the menu loop for an entry other than 5. */
  function Apply(posts: Posts, cmd: Command): (r: Result<Step, Error>)
    requires !cmd.Stop?
    ensures r.Err? <==> cmd.Delete? && ResolveIndex(UserIndex(cmd.number), |posts|).None?
    ensures r.Ok? ==> |r.value.posts| == |posts| + (if cmd.Create? then 1 else 0) - (if cmd.Delete? then 1 else 0)
  {
    match cmd
    case ViewAll => Ok(Step(posts, View(posts)))
    case Create(t, c) => Ok(Step(CreatePost(posts, t, c), []))
    case Update(k, f, t) => Ok(UpdatePost(posts, k, f, t))
    case Delete(k) =>
      (match DeletePost(posts, k)
       case Ok(ps) => Ok(Step(ps, []))
       case Err(e) => Err(e))
    case Unrecognized => Ok(Step(posts, []))
  }

  /** The view numbers posts from 1 in list order: the title line of post i
      reads back as number i + 1 and that post's title. */
  lemma ViewNumbersInOrder(posts: Posts)
    ensures |View(posts)| == 3 * |posts| + 2
    ensures forall i :: 0 <= i < |posts| ==>
              && ParseLabel(View(posts)[3 * i + 2]) == Some((i + 1, posts[i].title))
              && View(posts)[3 * i + 3] == posts[i].content
  {
    var v := View(posts);
    var body := ViewFrom(posts, 1);
    forall i | 0 <= i < |posts|
      ensures ParseLabel(v[3 * i + 2]) == Some((i + 1, posts[i].title))
      ensures v[3 * i + 3] == posts[i].content
    {
      assert v[3 * i + 2] == body[3 * i + 1];
      assert v[3 * i + 3] == body[3 * i + 2];
      LabelRoundTrip(i + 1, posts[i].title);
    }
  }

  /** Number k names list index k - 1: numbers 1..n name the posts in order,
      and numbers 1 - n..0 count back from the end, so 0 names the last post. */
  lemma UserNumberResolution(number: int, n: nat)
    ensures 1 <= number <= n ==> ResolveIndex(UserIndex(number), n) == Some(number - 1)
    ensures 1 - n <= number <= 0 ==> ResolveIndex(UserIndex(number), n) == Some(number - 1 + n)
    ensures number > n || number < 1 - n ==> ResolveIndex(UserIndex(number), n) == None
    ensures n > 0 ==> ResolveIndex(UserIndex(0), n) == Some(n - 1)
  {
  }

  /** Create appends exactly one post with the given title and content and
      leaves the earlier posts unchanged. */
  lemma CreateAppends(posts: Posts, title: string, content: string)
    ensures |CreatePost(posts, title, content)| == |posts| + 1
    ensures CreatePost(posts, title, content)[..|posts|] == posts
    ensures CreatePost(posts, title, content)[|posts|] == Post(title, content)
  {
    assert (posts + [Post(title, content)])[..|posts|] == posts;
  }

  /** Deleting the newest post (number 0, which Python's index -1 names, or
      number n + 1) undoes creating it. */
  lemma DeleteUndoesCreate(posts: Posts, title: string, content: string)
    ensures DeletePost(CreatePost(posts, title, content), 0) == Ok(posts)
    ensures DeletePost(CreatePost(posts, title, content), |posts| + 1) == Ok(posts)
  {
    var q := CreatePost(posts, title, content);
    assert ResolveIndex(UserIndex(0), |q|) == Some(|posts|);
    assert ResolveIndex(UserIndex(|posts| + 1), |q|) == Some(|posts|);
    assert q[..|posts|] + q[|posts| + 1..] == posts;
  }

  /** Updating the title of a legal post changes that title only. */
  lemma UpdateTitleOnly(posts: Posts, number: int, text: string)
    requires ResolveIndex(UserIndex(number), |posts|).Some?
    ensures var j := ResolveIndex(UserIndex(number), |posts|).value;
            var r := UpdatePost(posts, number, "title", text);
            && r.output == []
            && r.posts[j].title == text
            && r.posts[j].content == posts[j].content
            && forall i :: 0 <= i < |posts| && i != j ==> r.posts[i] == posts[i]
  {
  }

  /** Any field other than "title" updates the content of a legal post and
      nothing else. */
  lemma UpdateOtherFieldChangesContent(posts: Posts, number: int, field: string, text: string)
    requires ResolveIndex(UserIndex(number), |posts|).Some?
    requires field != "title"
    ensures var j := ResolveIndex(UserIndex(number), |posts|).value;
            var r := UpdatePost(posts, number, field, text);
            && r.output == []
            && r.posts[j].content == text
            && r.posts[j].title == posts[j].title
            && forall i :: 0 <= i < |posts| && i != j ==> r.posts[i] == posts[i]
  {
  }

  /** An update naming no post leaves the posts unchanged and reports it. */
  lemma UpdateOutOfRangeUnchanged(posts: Posts, number: int, field: string, text: string)
    requires number > |posts| || number < 1 - |posts|
    ensures UpdatePost(posts, number, field, text) == Step(posts, ["No such post"])
  {
  }

  /** Deleting a legal post removes exactly that one; the others keep their
      relative order. */
  lemma DeleteRemovesOne(posts: Posts, number: int)
    requires ResolveIndex(UserIndex(number), |posts|).Some?
    ensures var j := ResolveIndex(UserIndex(number), |posts|).value;
            var r := DeletePost(posts, number);
            && r.Ok?
            && r.value[..j] == posts[..j]
            && r.value[j..] == posts[j + 1..]
            && multiset(r.value) + multiset{posts[j]} == multiset(posts)
  {
    var j := ResolveIndex(UserIndex(number), |posts|).value;
    assert posts == posts[..j] + [posts[j]] + posts[j + 1..];
  }
}

=== FILE: comprehensions.dfy ===
/** The list comprehensions of the advanced-data-structures lesson: the
    squares of the even elements, and the flattening of a list of rows. */
module Comprehensions {
  import opened Functional

  /** `x % 2 == 0`. */
  predicate IsEven(x: int) {
    x % 2 == 0
  }

  /** `[x**2 for x in s if x % 2 == 0]`. */
  function SquaresOfEvens(s: seq<int>): seq<int> {
    if |s| == 0 then []
    else if IsEven(s[0]) then [Square(s[0])] + SquaresOfEvens(s[1..])
    else SquaresOfEvens(s[1..])
  }

  /** `[item for sublist in m for item in sublist]`. */
  function Flatten<T>(m: seq<seq<T>>): seq<T> {
    if |m| == 0 then [] else m[0] + Flatten(m[1..])
  }

  /** The sum of the row lengths. */
  function TotalLength<T>(m: seq<seq<T>>): nat {
    if |m| == 0 then 0 else |m[0]| + TotalLength(m[1..])
  }

  /** The comprehension is `map(square, filter(is_even, s))`: the squares of
      the even elements, in their order. */
  lemma {:induction false} SquaresOfEvensIsMapOfFilter(s: seq<int>)
    ensures SquaresOfEvens(s) == Map(Square, Filter(IsEven, s))
  {
    if |s| > 0 {
      SquaresOfEvensIsMapOfFilter(s[1..]);
      if IsEven(s[0]) {
        var f := Filter(IsEven, s[1..]);
        assert Filter(IsEven, s) == [s[0]] + f;
        assert Map(Square, [s[0]] + f) == [Square(s[0])] + Map(Square, f);
      }
    }
  }

  /** Each value of the comprehension is the square of an even element. */
  lemma {:induction false} SquaresOfEvensMembers(s: seq<int>, y: int)
    ensures y in SquaresOfEvens(s) <==> exists i :: 0 <= i < |s| && IsEven(s[i]) && y == Square(s[i])
  {
    if |s| > 0 {
      SquaresOfEvensMembers(s[1..], y);
      assert forall i :: 1 <= i < |s| ==> s[i] == s[1..][i - 1];
      if exists i :: 0 <= i < |s| && IsEven(s[i]) && y == Square(s[i]) {
        var i :| 0 <= i < |s| && IsEven(s[i]) && y == Square(s[i]);
        if i > 0 {
          assert IsEven(s[1..][i - 1]) && y == Square(s[1..][i - 1]);
        }
      }
    }
  }

  lemma SquaresOfEvensExample()
    ensures SquaresOfEvens([1, 2, 3, 4, 5, 6]) == [4, 16, 36]
  {
  }

  /** Flattening keeps every item and the order of rows and items: its length
      is the sum of the row lengths. */
  lemma {:induction false} FlattenLength<T>(m: seq<seq<T>>)
    ensures |Flatten(m)| == TotalLength(m)
  {
    if |m| > 0 {
      FlattenLength(m[1..]);
    }
  }

  /** Flattening two blocks of rows is flattening each and concatenating. */
  lemma {:induction false} FlattenAppend<T>(a: seq<seq<T>>, b: seq<seq<T>>)
    ensures Flatten(a + b) == Flatten(a) + Flatten(b)
  {
    if |a| == 0 {
      assert a + b == b;
    } else {
      assert (a + b)[1..] == a[1..] + b;
      FlattenAppend(a[1..], b);
    }
  }

  lemma FlattenExample()
    ensures Flatten([[1, 2], [3, 4], [5, 6]]) == [1, 2, 3, 4, 5, 6]
  {
  }
}

=== FILE: control_flow.dfy ===
/** The decision examples of the control-flow lesson: the age-band and grade
    ladders and four `match` dispatch functions. */
module ControlFlow {
  import opened Results
  import opened Text

  // ---------------------------------------------------------------------
  // if/elif ladders

  datatype AgeBand = Minor | Adult | Senior

  /** The age ladder: under 18, 18 up to 59, 60 and over. */
  function AgeBandOf(age: int): AgeBand {
    if age < 18 then Minor
    else if age >= 18 && age < 60 then Adult
    else Senior
  }

  function AgeMessage(band: AgeBand): string {
    match band
    case Minor => "You are a minor."
    case Adult => "You are an adult."
    case Senior => "You are a senior citizen."
  }

  datatype Grade = A | B | C

  /** The nested grade ladder: A from 90, B from 80, C below. */
  function GradeOf(score: int): Grade {
    if score >= 90 then A
    else if score >= 80 then B
    else C
  }

  /** Rank of a grade, C lowest. */
  function Rank(g: Grade): nat {
    match g
    case C => 0
    case B => 1
    case A => 2
  }

  /** The three bands partition the integers: each age lies in exactly one
      interval, gets that interval's band, and the three messages differ. */
  lemma AgeBandsPartition(age: int)
    ensures AgeBandOf(age) == Minor <==> age < 18
    ensures AgeBandOf(age) == Adult <==> 18 <= age < 60
    ensures AgeBandOf(age) == Senior <==> age >= 60
    ensures forall b1: AgeBand, b2: AgeBand :: AgeMessage(b1) == AgeMessage(b2) ==> b1 == b2
  {
    forall b1: AgeBand, b2: AgeBand | AgeMessage(b1) == AgeMessage(b2)
      ensures b1 == b2
    {
      assert AgeMessage(b1)[11] == AgeMessage(b2)[11];
    }
  }

  /** The age ladder never moves an older person to a younger band. */
  lemma AgeBandMonotone(a1: int, a2: int)
    requires a1 <= a2
    ensures AgeBandOf(a1) == Adult ==> AgeBandOf(a2) != Minor
    ensures AgeBandOf(a1) == Senior ==> AgeBandOf(a2) == Senior
  {
  }

  /** A for 90 and above, B for 80..89, C below 80. */
  lemma GradeBands(score: int)
    ensures GradeOf(score) == A <==> score >= 90
    ensures GradeOf(score) == B <==> 80 <= score < 90
    ensures GradeOf(score) == C <==> score < 80
  {
  }

  /** A higher score never earns a lower grade. */
  lemma GradeMonotone(s1: int, s2: int)
    requires s1 <= s2
    ensures Rank(GradeOf(s1)) <= Rank(GradeOf(s2))
  {
  }

  // ---------------------------------------------------------------------
  // check_status

  /** The reason phrases RFC 9110 gives these status codes (section 15.3.1
      for 200, 15.5.1 for 400, 15.5.5 for 404, 15.6.1 for 500). */
  const ReasonPhrases: map<int, string> :=
    map[200 := "OK", 400 := "Bad Request", 404 := "Not Found", 500 := "Internal Server Error"]

  const UnknownStatus: string := "Unknown Status Code"

  function CheckStatus(code: int): string {
    match code
    case 200 => "OK"
    case 400 => "Bad Request"
    case 404 => "Not Found"
    case 500 => "Internal Server Error"
    case _ => UnknownStatus
  }

  /** `check_status` answers the RFC 9110 reason phrase of the four codes it
      knows and "Unknown Status Code" for every other code, and the fallback
      is never mistaken for a known phrase. */
  lemma CheckStatusAgreesWithRfc9110(code: int)
    ensures code in ReasonPhrases ==> CheckStatus(code) == ReasonPhrases[code]
    ensures code !in ReasonPhrases ==> CheckStatus(code) == UnknownStatus
    ensures CheckStatus(code) == UnknownStatus <==> code !in ReasonPhrases
  {
    if code in ReasonPhrases {
      assert ReasonPhrases[code] != UnknownStatus by {
        assert ReasonPhrases[code][0] != 'U';
      }
    }
  }

  // ---------------------------------------------------------------------
  // get_animal_sound

  function AnimalSound(animal: string): string {
    match animal
    case "dog" => "Bark"
    case "wolf" => "Bark"
    case "cat" => "Meow"
    case "cow" => "Moo"
    case _ => "Unknown Sound"
  }

  /** "dog" and "wolf" share a case; each sound comes from exactly the
      animals listed for it. */
  lemma AnimalSoundCases(animal: string)
    ensures AnimalSound(animal) == "Bark" <==> animal == "dog" || animal == "wolf"
    ensures AnimalSound(animal) == "Meow" <==> animal == "cat"
    ensures AnimalSound(animal) == "Moo" <==> animal == "cow"
    ensures AnimalSound(animal) == "Unknown Sound" <==> animal !in {"dog", "wolf", "cat", "cow"}
  {
  }

  // ---------------------------------------------------------------------
  // point_location

  /** The subject of `point_location`: a pair of numbers, or anything else. */
  datatype Subject = Pair(x: int, y: int) | NotAPair

  const XAxisPrefix: string := "On the X-axis at "
  const YAxisPrefix: string := "On the Y-axis at "
  const PlanePrefix: string := "In the plane at ("

  /** Cases tried in order: the origin, then the X axis, then the Y axis, then
      any pair; a subject that is not a pair falls through to the default. */
  function PointLocation(p: Subject): string {
    match p
    case Pair(0, 0) => "Origin"
    case Pair(x, 0) => XAxisPrefix + IntToDecimal(x)
    case Pair(0, y) => YAxisPrefix + IntToDecimal(y)
    case Pair(x, y) => PlanePrefix + IntToDecimal(x) + ", " + IntToDecimal(y) + ")"
    case NotAPair => "Unknown location"
  }

  /** The origin is reported as "Origin" and not as a point of either axis,
      because its case comes first. */
  lemma OriginPrecedesAxes()
    ensures PointLocation(Pair(0, 0)) == "Origin"
    ensures !StartsWith(PointLocation(Pair(0, 0)), XAxisPrefix)
    ensures !StartsWith(PointLocation(Pair(0, 0)), YAxisPrefix)
  {
  }

  /** Which answer each pair gets, and that the coordinate the answer prints
      reads back as the coordinate given. */
  lemma PointLocationCases(x: int, y: int)
    ensures PointLocation(Pair(x, y)) == "Origin" <==> x == 0 && y == 0
    ensures StartsWith(PointLocation(Pair(x, y)), XAxisPrefix) <==> x != 0 && y == 0
    ensures StartsWith(PointLocation(Pair(x, y)), YAxisPrefix) <==> x == 0 && y != 0
    ensures StartsWith(PointLocation(Pair(x, y)), PlanePrefix) <==> x != 0 && y != 0
    ensures x != 0 && y == 0 ==> ParseInt(PointLocation(Pair(x, y))[|XAxisPrefix|..]) == Some(x)
    ensures x == 0 && y != 0 ==> ParseInt(PointLocation(Pair(x, y))[|YAxisPrefix|..]) == Some(y)
  {
    var r := PointLocation(Pair(x, y));
    // The four prefixes disagree on one of their first three characters.
    assert "Origin"[1] == 'r' && XAxisPrefix[1] == 'n' && PlanePrefix[0] == 'I';
    assert XAxisPrefix[7] == 'X' && YAxisPrefix[7] == 'Y';
    if x == 0 && y == 0 {
    } else if y == 0 {
      assert r[..|XAxisPrefix|] == XAxisPrefix;
      assert r[|XAxisPrefix|..] == IntToDecimal(x);
      IntToDecimalRoundTrip(x);
    } else if x == 0 {
      assert r[..|YAxisPrefix|] == YAxisPrefix;
      assert r[|YAxisPrefix|..] == IntToDecimal(y);
      IntToDecimalRoundTrip(y);
    } else {
      assert r[..|PlanePrefix|] == PlanePrefix;
    }
  }

  /** Anything that is not a pair is an unknown location. */
  lemma NotAPairIsUnknown()
    ensures PointLocation(NotAPair) == "Unknown location"
  {
  }

  // ---------------------------------------------------------------------
  // user_info

  /** The values a user record holds: strings or ints. */
  datatype Value = Str(s: string) | Int(i: int)

  /** `str(value)` as an f-string prints it. */
  function Render(v: Value): string {
    match v
    case Str(s) => s
    case Int(i) => IntToDecimal(i)
  }

  /** The subject of `user_info`: a mapping from keys to values, or anything else. */
  datatype UserSubject = Mapping(fields: map<string, Value>) | NotAMapping

  const InvalidUser: string := "Invalid user data"

  /** The mapping pattern needs keys "name" and "age" and ignores extra keys. */
  function UserInfo(user: UserSubject): string {
    if user.Mapping? && "name" in user.fields && "age" in user.fields then
      "User " + Render(user.fields["name"]) + " is " + Render(user.fields["age"]) + " years old"
    else InvalidUser
  }

  /** `user_info` succeeds exactly for mappings holding both keys, extra keys
      or not, and then reports both values. */
  lemma UserInfoSucceedsIffBothKeys(user: UserSubject)
    ensures UserInfo(user) != InvalidUser <==>
              user.Mapping? && "name" in user.fields && "age" in user.fields
    ensures user.Mapping? && "name" in user.fields && "age" in user.fields ==>
              StartsWith(UserInfo(user), "User " + Render(user.fields["name"]) + " is ")
    ensures user.Mapping? && "name" in user.fields && "age" in user.fields ==>
              UserInfo(user)[|"User " + Render(user.fields["name"]) + " is "|..]
                == Render(user.fields["age"]) + " years old"
  {
    var r := UserInfo(user);
    if user.Mapping? && "name" in user.fields && "age" in user.fields {
      assert r[0] == 'U' && InvalidUser[0] == 'I';
      var p := "User " + Render(user.fields["name"]) + " is ";
      assert r == p + (Render(user.fields["age"]) + " years old");
      assert r[..|p|] == p;
    }
  }

  /** Extra keys never change the answer. */
  lemma UserInfoIgnoresExtraKeys(fields: map<string, Value>, key: string, v: Value)
    requires key != "name" && key != "age"
    ensures UserInfo(Mapping(fields[key := v])) == UserInfo(Mapping(fields))
  {
  }
}

=== FILE: deque.dfy ===
/** `collections.deque` as the advanced-data-structures lesson uses it:
    appending and popping at both ends, rotating, and extending at both
    ends. A deque is modelled by its elements from left to right. */
module Deque {
  import opened Results

  /** The exception raised by popping from an empty deque. */
  datatype Error = IndexError(message: string)

  /** `dq.append(x)`. */
  function Append<T>(d: seq<T>, x: T): seq<T> {
    d + [x]
  }

  /** `dq.appendleft(x)`. */
  function AppendLeft<T>(d: seq<T>, x: T): seq<T> {
    [x] + d
  }

  /** `dq.pop()`: the rightmost element and the deque without it. */
  function Pop<T>(d: seq<T>): (r: Result<(T, seq<T>), Error>)
    ensures r.Err? <==> |d| == 0
  {
    if |d| == 0 then Err(IndexError("pop from an empty deque"))
    else Ok((d[|d| - 1], d[..|d| - 1]))
  }

  /** `dq.popleft()`: the leftmost element and the deque without it. */
  function PopLeft<T>(d: seq<T>): (r: Result<(T, seq<T>), Error>)
    ensures r.Err? <==> |d| == 0
  {
    if |d| == 0 then Err(IndexError("pop from an empty deque"))
    else Ok((d[0], d[1..]))
  }

  /** n mod m for m > 0: the remainder in [0, m), as Python's `%` gives it
      for a positive divisor, found by adding or subtracting m. */
  function Wrap(n: int, m: int): (k: int)
    requires m > 0
    ensures 0 <= k < m
    decreases if n < 0 then m - n else n
  {
    if n < 0 then Wrap(n + m, m) else if n >= m then Wrap(n - m, m) else n
  }

  /** `dq.rotate(n)`: n steps to the right (to the left for negative n); the
      element at position j moves to position (j + n) mod len. */
  function Rotate<T>(d: seq<T>, n: int): (r: seq<T>)
    ensures |r| == |d|
  {
    if |d| == 0 then d
    else
      var k := Wrap(n, |d|);
      d[|d| - k..] + d[..|d| - k]
  }

  /** `dq.extend(xs)`. */
  function Extend<T>(d: seq<T>, xs: seq<T>): seq<T> {
    d + xs
  }

  /** `dq.extendleft(xs)`: each element of `xs` in turn is appended on the left. */
  function ExtendLeft<T>(d: seq<T>, xs: seq<T>): seq<T>
    decreases |xs|
  {
    if |xs| == 0 then d else ExtendLeft(AppendLeft(d, xs[0]), xs[1..])
  }

  function Reverse<T>(xs: seq<T>): (r: seq<T>)
    ensures |r| == |xs|
    ensures forall i :: 0 <= i < |xs| ==> r[i] == xs[|xs| - 1 - i]
  {
    if |xs| == 0 then [] else Reverse(xs[1..]) + [xs[0]]
  }

  lemma {:induction false} MulAtLeast(m: int, t: int)
    requires m > 0 && t >= 1
    ensures m * t >= m
    decreases t
  {
    if t > 1 {
      MulAtLeast(m, t - 1);
      assert m * t == m * (t - 1) + m;
    }
  }

  /** The remainder is the one r in [0, m) with x == m * q + r. */
  lemma ModUnique(x: int, m: int, q: int, r: int)
    requires m > 0 && 0 <= r < m && x == m * q + r
    ensures x % m == r
  {
    var q0, r0 := x / m, x % m;
    assert x == m * q0 + r0;
    var t := q0 - q;
    assert m * t == m * q0 - m * q;
    assert m * t == r - r0;
    if t >= 1 {
      MulAtLeast(m, t);
    } else if t <= -1 {
      assert m * (-t) == -(m * t);
      MulAtLeast(m, -t);
    }
  }

  /** `Wrap` is the Euclidean remainder, which for a positive divisor is the
      remainder Python's `%` gives. */
  lemma {:induction false} WrapIsMod(n: int, m: int)
    requires m > 0
    ensures Wrap(n, m) == n % m
    decreases if n < 0 then m - n else n
  {
    if n < 0 {
      WrapIsMod(n + m, m);
      ModUnique(n + m, m, (n + m) / m, (n + m) % m);
      ModUnique(n, m, (n + m) / m - 1, (n + m) % m);
    } else if n >= m {
      WrapIsMod(n - m, m);
      ModUnique(n, m, (n - m) / m + 1, (n - m) % m);
    } else {
      ModUnique(n, m, 0, n);
    }
  }

  /** Adding the modulus does not change the remainder. */
  lemma WrapStep(y: int, m: int)
    requires m > 0
    ensures Wrap(y + m, m) == Wrap(y, m)
  {
  }

  /** Reducing the left operand of a sum first does not change the remainder. */
  lemma {:induction false} WrapAddCompat(x: int, c: int, m: int)
    requires m > 0
    ensures Wrap(Wrap(x, m) + c, m) == Wrap(x + c, m)
    decreases if x < 0 then m - x else x
  {
    if x < 0 {
      WrapAddCompat(x + m, c, m);
      WrapStep(x + c, m);
    } else if x >= m {
      WrapAddCompat(x - m, c, m);
      WrapStep(x - m + c, m);
    }
  }

  /** Reducing the subtrahend first does not change the remainder. */
  lemma {:induction false} WrapSubCompat(x: int, y: int, m: int)
    requires m > 0
    ensures Wrap(x - Wrap(y, m), m) == Wrap(x - y, m)
    decreases if y < 0 then m - y else y
  {
    if y < 0 {
      WrapSubCompat(x, y + m, m);
      WrapStep(x - y - m, m);
    } else if y >= m {
      WrapSubCompat(x, y - m, m);
      WrapStep(x - y, m);
    }
  }

  /** Where position j of a rotation by n (offset k == n mod m) reads from. */
  lemma RotateOffset(j: int, n: int, m: int)
    requires 0 <= j < m
    ensures j < Wrap(n, m) ==> Wrap(j - n, m) == j - Wrap(n, m) + m
    ensures j >= Wrap(n, m) ==> Wrap(j - n, m) == j - Wrap(n, m)
  {
    var k := Wrap(n, m);
    WrapSubCompat(j, n, m);
    if j < k {
      WrapStep(j - k, m);
    }
  }

  /** Element j of `rotate(n)` is element (j - n) mod len of the original. */
  lemma RotateIndex<T>(d: seq<T>, n: int, j: int)
    requires 0 <= j < |d|
    ensures Rotate(d, n)[j] == d[Wrap(j - n, |d|)]
  {
    var m := |d|;
    var k := Wrap(n, m);
    var r := Rotate(d, n);
    assert r == d[m - k..] + d[..m - k];
    RotateOffset(j, n, m);
    if j < k {
      assert r[j] == d[m - k..][j] == d[m - k + j];
    } else {
      assert r[j] == d[..m - k][j - k] == d[j - k];
    }
  }

  /** `pop` undoes `append`, and `append` undoes `pop`. */
  lemma PopUndoesAppend<T>(d: seq<T>, x: T)
    ensures Pop(Append(d, x)) == Ok((x, d))
    ensures |d| > 0 ==> Append(Pop(d).value.1, Pop(d).value.0) == d
  {
    assert (d + [x])[..|d|] == d;
  }

  /** `popleft` undoes `appendleft`, and `appendleft` undoes `popleft`. */
  lemma PopLeftUndoesAppendLeft<T>(d: seq<T>, x: T)
    ensures PopLeft(AppendLeft(d, x)) == Ok((x, d))
    ensures |d| > 0 ==> AppendLeft(PopLeft(d).value.1, PopLeft(d).value.0) == d
  {
    assert ([x] + d)[1..] == d;
  }

  /** `rotate(1)` moves the last element to the front. */
  lemma RotateOneMovesLastToFront<T>(d: seq<T>)
    requires |d| > 0
    ensures Rotate(d, 1) == [d[|d| - 1]] + d[..|d| - 1]
  {
    if |d| == 1 {
      assert Wrap(1, 1) == 0;
      assert d == [d[0]];
    } else {
      assert Wrap(1, |d|) == 1;
      assert d[|d| - 1..] == [d[|d| - 1]];
    }
  }

  /** Two successive offsets add up. */
  lemma WrapCompose(j: int, a: int, b: int, m: int)
    requires m > 0
    ensures Wrap(Wrap(j - b, m) - a, m) == Wrap(j - (a + b), m)
  {
    WrapAddCompat(j - b, -a, m);
    assert Wrap(j - b, m) + -a == Wrap(j - b, m) - a;
    assert j - b + -a == j - (a + b);
  }

  /** `RotateIndex` for every position at once. */
  lemma RotateIndexAll<T>(d: seq<T>, n: int)
    ensures forall j :: 0 <= j < |d| ==> Rotate(d, n)[j] == d[Wrap(j - n, |d|)]
  {
    forall j | 0 <= j < |d|
      ensures Rotate(d, n)[j] == d[Wrap(j - n, |d|)]
    {
      RotateIndex(d, n, j);
    }
  }

  /** Sequences that read d through offsets a, then b, and a + b agree. */
  lemma ComposeOffsets<T>(d: seq<T>, e: seq<T>, f: seq<T>, g: seq<T>, a: int, b: int)
    requires |e| == |d| && |f| == |d| && |g| == |d|
    requires forall i :: 0 <= i < |d| ==> e[i] == d[Wrap(i - a, |d|)]
    requires forall i :: 0 <= i < |d| ==> f[i] == e[Wrap(i - b, |d|)]
    requires forall i :: 0 <= i < |d| ==> g[i] == d[Wrap(i - (a + b), |d|)]
    ensures f == g
  {
    forall j | 0 <= j < |d|
      ensures f[j] == g[j]
    {
      WrapCompose(j, a, b, |d|);
    }
  }

  /** Rotating by a and then by b is rotating by a + b. */
  lemma RotateCompose<T>(d: seq<T>, a: int, b: int)
    ensures Rotate(Rotate(d, a), b) == Rotate(d, a + b)
  {
    var e := Rotate(d, a);
    RotateIndexAll(d, a);
    RotateIndexAll(e, b);
    RotateIndexAll(d, a + b);
    ComposeOffsets(d, e, Rotate(e, b), Rotate(d, a + b), a, b);
  }

  /** `rotate(n)` followed by `rotate(-n)` restores the deque. */
  lemma RotateInverse<T>(d: seq<T>, n: int)
    ensures Rotate(Rotate(d, n), -n) == d
  {
    RotateCompose(d, n, -n);
    if |d| > 0 {
      assert Wrap(0, |d|) == 0;
      assert d[|d|..] + d[..|d|] == d;
    }
  }

  /** Appending each element of `xs` in turn on the right, the way
      `extend` consumes its iterable. */
  function AppendEach<T>(d: seq<T>, xs: seq<T>): seq<T>
    decreases |xs|
  {
    if |xs| == 0 then d else AppendEach(Append(d, xs[0]), xs[1..])
  }

  /** `extend` is `append` of each element in turn. */
  lemma {:induction false} ExtendIsRepeatedAppend<T>(d: seq<T>, xs: seq<T>)
    ensures Extend(d, xs) == AppendEach(d, xs)
    decreases |xs|
  {
    if |xs| > 0 {
      ExtendIsRepeatedAppend(Append(d, xs[0]), xs[1..]);
      assert (d + [xs[0]]) + xs[1..] == d + xs;
    }
  }

  /** `extendleft` prepends the elements in reverse order. */
  lemma {:induction false} ExtendLeftReverses<T>(d: seq<T>, xs: seq<T>)
    ensures ExtendLeft(d, xs) == Reverse(xs) + d
    decreases |xs|
  {
    if |xs| > 0 {
      ExtendLeftReverses([xs[0]] + d, xs[1..]);
      assert Reverse(xs) == Reverse(xs[1..]) + [xs[0]];
      assert Reverse(xs[1..]) + ([xs[0]] + d) == Reverse(xs) + d;
    }
  }

  /** The lesson's run: [1, 2, 3], append 4, appendleft 0, pop, popleft,
      rotate(1) giving [3, 1, 2], rotate(-1), extend [4, 5], extendleft
      [0, -1] giving [-1, 0, 1, 2, 3, 4, 5]. */
  lemma LessonExample()
    ensures AppendLeft(Append([1, 2, 3], 4), 0) == [0, 1, 2, 3, 4]
    ensures Pop([0, 1, 2, 3, 4]) == Ok((4, [0, 1, 2, 3]))
    ensures PopLeft([0, 1, 2, 3]) == Ok((0, [1, 2, 3]))
    ensures Rotate([1, 2, 3], 1) == [3, 1, 2]
    ensures Rotate([3, 1, 2], -1) == [1, 2, 3]
    ensures ExtendLeft(Extend([1, 2, 3], [4, 5]), [0, -1]) == [-1, 0, 1, 2, 3, 4, 5]
  {
    RotateOneMovesLastToFront([1, 2, 3]);
    assert [1, 2, 3][..2] == [1, 2];
    RotateInverse([1, 2, 3], 1);
    ExtendLeftReverses([1, 2, 3, 4, 5], [0, -1]);
    assert [0, 1, 2, 3, 4][..4] == [0, 1, 2, 3];
  }
}

=== FILE: exceptions.dfy ===
/** The exception-handling lesson: custom exception classes carrying
    context, and small functions that raise them. Division returns Python's
    true-division quotient, modelled as an exact `real`. */
module Exceptions {
  import opened Results
  import opened Text

  /** The exceptions raised here, with the data each carries. */
  datatype Error =
    | NegativeValueError(value: int)
    | InvalidInputError(inputValue: string, message: string)
    | InsufficientFundsError(message: string)
    | AssertionError(message: string)

  const NegativePrefix: string := "Negative values are not allowed: "

  /** `str(e)`: the text each exception was constructed with. */
  function Message(e: Error): string {
    match e
    case NegativeValueError(v) => NegativePrefix + IntToDecimal(v)
    case InvalidInputError(input, msg) => msg + ": " + input
    case InsufficientFundsError(msg) => msg
    case AssertionError(msg) => msg
  }

  /** `process_value`: doubles a value, refusing negative ones. */
  function ProcessValue(value: int): (r: Result<int, Error>)
    ensures r.Err? <==> value < 0
    ensures r.Err? ==> r.error == NegativeValueError(value)
    ensures r.Ok? ==> r.value >= 0 && r.value - value == value
  {
    if value < 0 then Err(NegativeValueError(value)) else Ok(value * 2)
  }

  /** The check on user input: text that is not all digits raises
      InvalidInputError with the message "Expected a numeric value". */
  function CheckNumeric(userInput: string): (r: Outcome<Error>)
    ensures r.Fail? <==> !IsDigits(userInput)
    ensures r.Fail? ==> r.error.InvalidInputError? && r.error.inputValue == userInput
  {
    if !IsDigits(userInput) then Fail(InvalidInputError(userInput, "Expected a numeric value"))
    else Pass
  }

  /** `withdraw`: the new balance, unless the amount exceeds the balance. */
  function Withdraw(balance: int, amount: int): (r: Result<int, Error>)
    ensures r.Err? <==> amount > balance
    ensures r.Err? ==> r.error == InsufficientFundsError("Not enough funds available.")
    ensures r.Ok? ==> r.value >= 0 && r.value + amount == balance
  {
    if amount > balance then Err(InsufficientFundsError("Not enough funds available."))
    else Ok(balance - amount)
  }

  /** `divide`: the assertion rejects a zero divisor before dividing. */
  function Divide(a: real, b: real): (r: Result<real, Error>)
    ensures r.Err? <==> b == 0.0
    ensures r.Err? ==> r.error == AssertionError("The divisor must not be zero.")
    ensures r.Ok? ==> r.value * b == a
  {
    if b == 0.0 then Err(AssertionError("The divisor must not be zero.")) else Ok(a / b)
  }

  /** The NegativeValueError message names the offending value: it starts with
      the fixed text and the rest reads back as the value. */
  lemma NegativeMessageCarriesValue(value: int)
    requires value < 0
    ensures var m := Message(ProcessValue(value).error);
            && |NegativePrefix| <= |m|
            && m[..|NegativePrefix|] == NegativePrefix
            && ParseInt(m[|NegativePrefix|..]) == Some(value)
  {
    var m := Message(ProcessValue(value).error);
    assert m[..|NegativePrefix|] == NegativePrefix;
    assert m[|NegativePrefix|..] == IntToDecimal(value);
    IntToDecimalRoundTrip(value);
  }

  /** The InvalidInputError message is "Expected a numeric value: " followed
      by the rejected input. */
  lemma InvalidInputMessage(userInput: string)
    requires !IsDigits(userInput)
    ensures Message(CheckNumeric(userInput).error) == "Expected a numeric value: " + userInput
  {
  }

  /** Withdrawing the whole balance is allowed and leaves zero. */
  lemma WithdrawWholeBalance(balance: int)
    ensures Withdraw(balance, balance) == Ok(0)
  {
  }
}

=== FILE: functional.dfy ===
/** The functional-programming lesson: `map`, `filter` and `reduce` with
    named and anonymous functions, `functools.partial`, a Fibonacci function
    memoised by `functools.lru_cache`, and `itertools.accumulate`. */
module Functional {
  import opened Results

  // ---------------------------------------------------------------------
  // map / filter / reduce

  /** `square(x)`, that is `x ** 2`. */
  function Square(x: int): int {
    x * x
  }

  /** `is_odd(x)`: `x % 2 != 0` (Python's `%` and Dafny's agree on whether the
      remainder by 2 is zero). */
  predicate IsOdd(x: int) {
    x % 2 != 0
  }

  /** `list(map(f, s))`. */
  function Map(f: int -> int, s: seq<int>): (r: seq<int>)
    ensures |r| == |s|
    ensures forall i :: 0 <= i < |s| ==> r[i] == f(s[i])
  {
    if |s| == 0 then [] else [f(s[0])] + Map(f, s[1..])
  }

  /** `list(filter(p, s))`. */
  function Filter(p: int -> bool, s: seq<int>): (r: seq<int>)
    ensures forall i :: 0 <= i < |r| ==> p(r[i])
    ensures IsSubsequence(r, s)
  {
    if |s| == 0 then []
    else if p(s[0]) then [s[0]] + Filter(p, s[1..]) else Filter(p, s[1..])
  }

  /** `a` is `b` with some elements left out, the rest in their order. */
  predicate IsSubsequence(a: seq<int>, b: seq<int>) {
    if |a| == 0 then true
    else if |b| == 0 then false
    else if a[0] == b[0] then IsSubsequence(a[1..], b[1..])
    else IsSubsequence(a, b[1..])
  }

  /** Filtering keeps every element that passes as often as it occurs, and
      drops every element that fails. */
  lemma {:induction false} FilterKeepsExactlyThePassing(p: int -> bool, s: seq<int>)
    ensures forall x :: multiset(Filter(p, s))[x] == if p(x) then multiset(s)[x] else 0
  {
    if |s| > 0 {
      FilterKeepsExactlyThePassing(p, s[1..]);
      assert s == [s[0]] + s[1..];
    }
  }

  /** `multiply(x, y)`. */
  function Multiply(x: int, y: int): int {
    x * y
  }

  /** The left fold `reduce` performs from an accumulator. */
  function FoldLeft(f: (int, int) -> int, acc: int, s: seq<int>): int
    decreases |s|
  {
    if |s| == 0 then acc else FoldLeft(f, f(acc, s[0]), s[1..])
  }

  /** The exception `reduce` raises. */
  datatype Error = TypeError(message: string)

  /** `reduce(f, s)` without an initial value: TypeError on an empty sequence,
      otherwise the first element folded with the rest. */
  function Reduce(f: (int, int) -> int, s: seq<int>): (r: Result<int, Error>)
    ensures r.Err? <==> |s| == 0
  {
    if |s| == 0 then Err(TypeError("reduce() of empty iterable with no initial value"))
    else Ok(FoldLeft(f, s[0], s[1..]))
  }

  /** The product of a sequence, multiplying from the right. */
  function Product(s: seq<int>): int {
    if |s| == 0 then 1 else s[0] * Product(s[1..])
  }

  /** The sum of a sequence, adding from the left. */
  function Sum(s: seq<int>): int {
    if |s| == 0 then 0 else Sum(s[..|s| - 1]) + s[|s| - 1]
  }

  /** Mapping `square` keeps the length and squares every element. */
  lemma MapSquareExample()
    ensures Map(Square, [1, 2, 3, 4, 5]) == [1, 4, 9, 16, 25]
  {
  }

  /** Filtering with `is_odd` keeps the odd elements in their order. */
  lemma FilterOddExample()
    ensures Filter(IsOdd, [1, 2, 3, 4, 5]) == [1, 3, 5]
  {
  }

  lemma {:induction false} FoldMultiplyIsProduct(acc: int, s: seq<int>)
    ensures FoldLeft(Multiply, acc, s) == acc * Product(s)
    decreases |s|
  {
    if |s| > 0 {
      FoldMultiplyIsProduct(acc * s[0], s[1..]);
      assert (acc * s[0]) * Product(s[1..]) == acc * (s[0] * Product(s[1..]));
    }
  }

  /** `reduce(multiply, s)` is the product of a non-empty sequence, whichever
      end the multiplication starts from. */
  lemma ReduceMultiplyIsProduct(s: seq<int>)
    requires |s| > 0
    ensures Reduce(Multiply, s) == Ok(Product(s))
  {
    FoldMultiplyIsProduct(s[0], s[1..]);
  }

  lemma ReduceMultiplyExample()
    ensures Reduce(Multiply, [1, 2, 3, 4]) == Ok(24)
  {
    ReduceMultiplyIsProduct([1, 2, 3, 4]);
  }

  // ---------------------------------------------------------------------
  // partial

  /** `power(base, exponent)` for a non-negative exponent. */
  function Power(base: int, exponent: nat): int {
    if exponent == 0 then 1 else base * Power(base, exponent - 1)
  }

  /** `partial(power, exponent=2)`: agrees with squaring. */
  function PowerOfTwo(base: int): (r: int)
    ensures r == Square(base)
  {
    assert Power(base, 1) == base;
    Power(base, 2)
  }

  // ---------------------------------------------------------------------
  // fibonacci with lru_cache

  /** `fibonacci(n)`: n itself for n <= 1, negatives included. */
  function Fib(n: int): int
    decreases if n <= 1 then 0 else n
  {
    if n <= 1 then n else Fib(n - 1) + Fib(n - 2)
  }

  /** Every cached answer is the Fibonacci number of its key. */
  ghost predicate CacheSound(cache: map<int, int>) {
    forall k :: k in cache ==> cache[k] == Fib(k)
  }

  /** A call of the cached `fibonacci`: a hit answers from the cache; a miss
      computes `fibonacci(n - 1)` then `fibonacci(n - 2)` through the cache and
      stores the sum. Eviction (the cache holds 128 entries) is not modelled. */
  function FibCached(n: int, cache: map<int, int>): (r: (int, map<int, int>))
    requires CacheSound(cache)
    ensures r.0 == Fib(n)
    ensures CacheSound(r.1) && n in r.1 && cache.Keys <= r.1.Keys
    decreases if n <= 1 then 0 else n
  {
    if n in cache then (cache[n], cache)
    else if n <= 1 then (n, cache[n := n])
    else
      var (a, c1) := FibCached(n - 1, cache);
      var (b, c2) := FibCached(n - 2, c1);
      (a + b, c2[n := a + b])
  }

  /** The memo as a table filled bottom-up: entry i holds `fibonacci(i)`. */
  method FibTable(n: int) returns (r: int)
    ensures r == Fib(n)
  {
    if n <= 1 {
      return n;
    }
    var memo := [0, 1];
    while |memo| <= n
      invariant 2 <= |memo| <= n + 1
      invariant forall i :: 0 <= i < |memo| ==> memo[i] == Fib(i)
    {
      var i := |memo|;
      assert memo[i - 1] + memo[i - 2] == Fib(i);
      var next := memo + [memo[i - 1] + memo[i - 2]];
      assert forall t :: 0 <= t < i ==> next[t] == memo[t];
      memo := next;
    }
    r := memo[n];
  }

  /** The printed example: `fibonacci(10) == 55`. */
  lemma FibTen()
    ensures Fib(10) == 55
  {
    assert Fib(2) == 1 && Fib(3) == 2 && Fib(4) == 3 && Fib(5) == 5;
    assert Fib(6) == 8 && Fib(7) == 13 && Fib(8) == 21;
  }

  /** From 0 on the sequence is non-negative and non-decreasing. */
  lemma {:induction false} FibMonotone(n: nat)
    ensures 0 <= Fib(n) <= Fib(n + 1)
    decreases n
  {
    if n >= 1 {
      FibMonotone(n - 1);
    }
  }

  // ---------------------------------------------------------------------
  // accumulate

  /** `list(itertools.accumulate(s))`: the running sums. */
  method Accumulate(s: seq<int>) returns (r: seq<int>)
    ensures |r| == |s|
    ensures forall i :: 0 <= i < |s| ==> r[i] == Sum(s[..i + 1])
    ensures |s| > 0 ==> r[0] == s[0]
    ensures forall i :: 0 < i < |s| ==> r[i] - r[i - 1] == s[i]
  {
    r := [];
    var total := 0;
    var k := 0;
    while k < |s|
      invariant 0 <= k <= |s|
      invariant |r| == k
      invariant total == Sum(s[..k])
      invariant forall i :: 0 <= i < k ==> r[i] == Sum(s[..i + 1])
    {
      assert s[..k + 1][..k] == s[..k];
      total := total + s[k];
      r := r + [total];
      k := k + 1;
    }
    forall i | 0 < i < |s|
      ensures r[i] - r[i - 1] == s[i]
    {
      assert s[..i + 1][..i] == s[..i];
    }
  }

  /** The printed example: the running sums of [1, 2, 3, 4] are [1, 3, 6, 10]. */
  lemma AccumulateExample()
    ensures forall i :: 0 <= i < 4 ==> Sum([1, 2, 3, 4][..i + 1]) == [1, 3, 6, 10][i]
  {
    var s := [1, 2, 3, 4];
    assert s[..1] == [1] && s[..2] == [1, 2] && s[..3] == [1, 2, 3] && s[..4] == s;
    assert [1][..0] == [] && [1, 2][..1] == [1] && [1, 2, 3][..2] == [1, 2];
    assert Sum([1]) == 1 && Sum([1, 2]) == 3 && Sum([1, 2, 3]) == 6 && Sum(s) == 10;
  }
}

=== FILE: numbering.dfy ===
/** Numbered listing lines of the form "{k}. {text}", as printed by the to-do
    list's display branch and by the blog's post view (both count from 1). */
module Numbering {
  import opened Results
  import opened Text

  /** The line "{k}. {text}". */
  function Label(k: nat, text: string): string {
    NatToDecimal(k) + ". " + text
  }

  /** Number of leading digit characters of `s`. */
  function LeadingDigits(s: string): (n: nat)
    ensures n <= |s|
    ensures AllDigits(s[..n])
    ensures n < |s| ==> !IsDigit(s[n])
  {
    if |s| == 0 || !IsDigit(s[0]) then 0
    else
      var rest := LeadingDigits(s[1..]);
      assert s[..rest + 1] == [s[0]] + s[1..][..rest];
      rest + 1
  }

  /** Reads a line "{k}. {text}" back into its number and its text. */
  function ParseLabel(s: string): Option<(nat, string)> {
    var n := LeadingDigits(s);
    if n > 0 && n + 2 <= |s| && s[n..n + 2] == ". " then Some((DigitsValue(s[..n]), s[n + 2..]))
    else None
  }

  lemma {:induction false} LeadingDigitsOfDigitsPrefix(d: string, rest: string)
    requires AllDigits(d)
    requires |rest| > 0 && !IsDigit(rest[0])
    ensures LeadingDigits(d + rest) == |d|
  {
    if |d| > 0 {
      assert (d + rest)[1..] == d[1..] + rest;
      LeadingDigitsOfDigitsPrefix(d[1..], rest);
    } else {
      assert d + rest == rest;
    }
  }

  /** A numbered line determines its number and its text. */
  lemma LabelRoundTrip(k: nat, text: string)
    ensures ParseLabel(Label(k, text)) == Some((k, text))
  {
    var d := NatToDecimal(k);
    var s := Label(k, text);
    assert s == d + (". " + text);
    LeadingDigitsOfDigitsPrefix(d, ". " + text);
    assert s[..|d|] == d;
    assert s[|d|..|d| + 2] == ". ";
    assert s[|d| + 2..] == text;
    NatToDecimalRoundTrip(k);
  }

}

=== FILE: pydict.dfy ===
/** Python dicts as the advanced-data-structures lesson uses them: item
    assignment, `get` with a default, `update`, and the dict comprehensions
    that build a table of squares and swap keys with values. A dict is
    modelled by its items in insertion order, which is the order Python
    iterates and prints them in. */
module PyDict {
  import opened Results

  /** The items of a dict in insertion order. */
  type Dict<K, V> = seq<(K, V)>

  /** The invariant every dict keeps: no key occurs twice. */
  predicate DistinctKeys<K(==), V>(d: Dict<K, V>) {
    forall i, j :: 0 <= i < j < |d| ==> d[i].0 != d[j].0
  }

  /** No value occurs twice. */
  predicate DistinctValues<K, V(==)>(d: Dict<K, V>) {
    forall i, j :: 0 <= i < j < |d| ==> d[i].1 != d[j].1
  }

  /** The keys in insertion order. */
  function Keys<K, V>(d: Dict<K, V>): (ks: seq<K>)
    ensures |ks| == |d|
    ensures forall i :: 0 <= i < |d| ==> ks[i] == d[i].0
  {
    if |d| == 0 then [] else [d[0].0] + Keys(d[1..])
  }

  /** `d[k]`, with `None` for a missing key (Python raises KeyError). */
  function Get<K(==), V>(d: Dict<K, V>, k: K): (r: Option<V>)
    ensures r.Some? <==> k in Keys(d)
  {
    if |d| == 0 then None else if d[0].0 == k then Some(d[0].1) else Get(d[1..], k)
  }

  /** A found value is stored under the key. */
  lemma {:induction false} GetIsStored<K, V>(d: Dict<K, V>, k: K)
    ensures Get(d, k).Some? ==> (k, Get(d, k).value) in d
    decreases |d|
  {
    if |d| > 0 && d[0].0 != k {
      GetIsStored(d[1..], k);
    }
  }

  /** `d.get(k, default)`: the stored value when the key is present (no
      KeyError), the default otherwise. */
  function GetOr<K(==), V>(d: Dict<K, V>, k: K, default: V): (r: V)
    ensures k in Keys(d) ==> Get(d, k) == Some(r) && (k, r) in d
    ensures k !in Keys(d) ==> r == default
  {
    GetIsStored(d, k);
    match Get(d, k)
    case Some(v) => v
    case None => default
  }

  /** `d[k] = v`: an existing key keeps its place and takes the new value; a
      new key goes at the end. */
  function Set<K(==), V>(d: Dict<K, V>, k: K, v: V): Dict<K, V> {
    if |d| == 0 then [(k, v)]
    else if d[0].0 == k then [(k, v)] + d[1..]
    else [d[0]] + Set(d[1..], k, v)
  }

  /** Assigning each item in turn, as `update` and a dict comprehension do. */
  function SetAll<K(==), V>(d: Dict<K, V>, items: seq<(K, V)>): Dict<K, V>
    decreases |items|
  {
    if |items| == 0 then d else SetAll(Set(d, items[0].0, items[0].1), items[1..])
  }

  /** `d.update(other)`. */
  function Update<K(==), V>(d: Dict<K, V>, other: Dict<K, V>): Dict<K, V> {
    SetAll(d, other)
  }

  /** Each item with key and value exchanged. */
  function Flip<K, V>(d: Dict<K, V>): (r: Dict<V, K>)
    ensures |r| == |d|
    ensures forall i :: 0 <= i < |d| ==> r[i] == (d[i].1, d[i].0)
  {
    if |d| == 0 then [] else [(d[0].1, d[0].0)] + Flip(d[1..])
  }

  /** `{v: k for k, v in d.items()}`. */
  function Swap<K, V(==)>(d: Dict<K, V>): Dict<V, K> {
    SetAll([], Flip(d))
  }

  /** The items `(x, x ** 2)` for x in `range(n)`. */
  function SquareItems(n: nat): (items: seq<(int, int)>)
    ensures |items| == n
    ensures forall i :: 0 <= i < n ==> items[i] == (i, i * i)
  {
    if n == 0 then [] else SquareItems(n - 1) + [(n - 1, (n - 1) * (n - 1))]
  }

  /** `{x: x**2 for x in range(n)}`. */
  function SquaresDict(n: nat): Dict<int, int> {
    SetAll([], SquareItems(n))
  }

  // ---------------------------------------------------------------------
  // item assignment

  /** After `d[k] = v` the key maps to v and every other key is unchanged. */
  lemma {:induction false} SetGet<K, V>(d: Dict<K, V>, k: K, v: V, k': K)
    ensures Get(Set(d, k, v), k') == if k' == k then Some(v) else Get(d, k')
  {
    if |d| > 0 && d[0].0 != k {
      SetGet(d[1..], k, v, k');
      assert Set(d, k, v)[1..] == Set(d[1..], k, v);
    }
  }

  /** Assignment keeps the keys and their order, adding a new key at the end. */
  lemma {:induction false} SetKeys<K, V>(d: Dict<K, V>, k: K, v: V)
    ensures k in Keys(d) ==> Keys(Set(d, k, v)) == Keys(d)
    ensures k !in Keys(d) ==> Keys(Set(d, k, v)) == Keys(d) + [k]
  {
    if |d| > 0 && d[0].0 != k {
      SetKeys(d[1..], k, v);
      assert Set(d, k, v)[1..] == Set(d[1..], k, v);
      assert Keys(d)[1..] == Keys(d[1..]);
    }
  }

  /** Keys are distinct when the key sequence has no repeats. */
  lemma DistinctKeysFromKeys<K, V>(d: Dict<K, V>)
    requires forall i, j :: 0 <= i < j < |Keys(d)| ==> Keys(d)[i] != Keys(d)[j]
    ensures DistinctKeys(d)
  {
    var ks := Keys(d);
    forall i, j | 0 <= i < j < |d|
      ensures d[i].0 != d[j].0
    {
      assert ks[i] == d[i].0 && ks[j] == d[j].0;
    }
  }

  /** Assignment keeps keys distinct. */
  lemma SetKeepsDistinct<K, V>(d: Dict<K, V>, k: K, v: V)
    requires DistinctKeys(d)
    ensures DistinctKeys(Set(d, k, v))
  {
    SetKeys(d, k, v);
    var ks := Keys(d);
    var ks' := Keys(Set(d, k, v));
    forall i, j | 0 <= i < j < |ks'|
      ensures ks'[i] != ks'[j]
    {
      assert i < |ks| ==> ks[i] == d[i].0;
      assert j < |ks| ==> ks[j] == d[j].0;
    }
    DistinctKeysFromKeys(Set(d, k, v));
  }

  // ---------------------------------------------------------------------
  // update

  lemma {:induction false} SetAllKeysPrefix<K, V>(d: Dict<K, V>, items: seq<(K, V)>)
    ensures |Keys(d)| <= |Keys(SetAll(d, items))|
    ensures Keys(SetAll(d, items))[..|Keys(d)|] == Keys(d)
    ensures forall k :: k in Keys(SetAll(d, items)) <==> k in Keys(d) || k in Keys(items)
    decreases |items|
  {
    if |items| > 0 {
      var (k, v) := items[0];
      var d' := Set(d, k, v);
      SetKeys(d, k, v);
      SetAllKeysPrefix(d', items[1..]);
      assert Keys(d')[..|Keys(d)|] == Keys(d);
      assert Keys(items) == [k] + Keys(items[1..]);
    }
  }

  lemma {:induction false} SetAllKeepsDistinct<K, V>(d: Dict<K, V>, items: seq<(K, V)>)
    requires DistinctKeys(d)
    ensures DistinctKeys(SetAll(d, items))
    decreases |items|
  {
    if |items| > 0 {
      SetKeepsDistinct(d, items[0].0, items[0].1);
      SetAllKeepsDistinct(Set(d, items[0].0, items[0].1), items[1..]);
    }
  }

  /** After `d.update(other)` a key of `other` maps to other's value and
      every other key keeps its value in `d`. */
  lemma {:induction false} UpdateGet<K, V>(d: Dict<K, V>, other: Dict<K, V>, k: K)
    requires DistinctKeys(other)
    ensures Get(Update(d, other), k) == if k in Keys(other) then Get(other, k) else Get(d, k)
    decreases |other|
  {
    if |other| > 0 {
      var (k0, v0) := other[0];
      UpdateGet(Set(d, k0, v0), other[1..], k);
      SetGet(d, k0, v0, k);
      assert Keys(other) == [k0] + Keys(other[1..]);
      if k == k0 {
        assert k !in Keys(other[1..]);
      }
    }
  }

  /** `update` overwrites existing keys in place and appends new ones: the old
      keys stay first and in order, the keys are exactly those of both dicts,
      and no key is duplicated. */
  lemma UpdateKeys<K, V>(d: Dict<K, V>, other: Dict<K, V>)
    requires DistinctKeys(d)
    ensures |d| <= |Update(d, other)|
    ensures Keys(Update(d, other))[..|d|] == Keys(d)
    ensures forall k :: k in Keys(Update(d, other)) <==> k in Keys(d) || k in Keys(other)
    ensures DistinctKeys(Update(d, other))
  {
    SetAllKeysPrefix(d, other);
    SetAllKeepsDistinct(d, other);
  }

  // ---------------------------------------------------------------------
  // comprehensions

  lemma KeysAppend<K, V>(a: Dict<K, V>, b: Dict<K, V>)
    ensures Keys(a + b) == Keys(a) + Keys(b)
  {
  }

  /** Assigning items whose keys are new and distinct appends them in order. */
  lemma {:induction false} SetAllFresh<K, V>(d: Dict<K, V>, items: seq<(K, V)>)
    requires DistinctKeys(items)
    requires forall i :: 0 <= i < |items| ==> items[i].0 !in Keys(d)
    ensures SetAll(d, items) == d + items
    decreases |items|
  {
    if |items| == 0 {
      assert d + items == d;
    } else {
      var (k, v) := items[0];
      assert Set(d, k, v) == d + [(k, v)] by {
        SetFreshAppends(d, k, v);
      }
      var d' := d + [(k, v)];
      var rest := items[1..];
      KeysAppend(d, [(k, v)]);
      assert Keys(d') == Keys(d) + [k];
      forall i | 0 <= i < |rest|
        ensures rest[i].0 !in Keys(d')
      {
        assert rest[i] == items[i + 1];
      }
      assert DistinctKeys(rest) by {
        forall i, j | 0 <= i < j < |rest|
          ensures rest[i].0 != rest[j].0
        {
          assert rest[i] == items[i + 1] && rest[j] == items[j + 1];
        }
      }
      SetAllFresh(d', rest);
      assert d + [(k, v)] + items[1..] == d + items;
    }
  }

  lemma {:induction false} SetFreshAppends<K, V>(d: Dict<K, V>, k: K, v: V)
    requires k !in Keys(d)
    ensures Set(d, k, v) == d + [(k, v)]
  {
    if |d| > 0 {
      assert Keys(d)[1..] == Keys(d[1..]);
      SetFreshAppends(d[1..], k, v);
      assert d == [d[0]] + d[1..];
    }
  }

  /** A distinct-keyed dict answers `Get` with the value of its item. */
  lemma GetDistinct<K, V>(d: Dict<K, V>, k: K, v: V)
    requires DistinctKeys(d)
    ensures Get(d, k) == Some(v) <==> (k, v) in d
  {
    if |d| > 0 {
      assert d == [d[0]] + d[1..];
      GetDistinct(d[1..], k, v);
    }
  }

  /** With distinct values no key is new when the flipped items are assigned
      in turn, so swapping flips the items in place. */
  lemma SwapIsFlip<K, V>(d: Dict<K, V>)
    requires DistinctValues(d)
    ensures Swap(d) == Flip(d)
  {
    var f := Flip(d);
    assert DistinctKeys(f) by {
      forall i, j | 0 <= i < j < |f|
        ensures f[i].0 != f[j].0
      {
        assert f[i].0 == d[i].1 && f[j].0 == d[j].1;
      }
    }
    SetAllFresh([], f);
    assert [] + f == f;
  }

  lemma FlipFlip<K, V>(d: Dict<K, V>)
    ensures Flip(Flip(d)) == d
  {
  }

  /** Flipping exchanges the roles of key and value in every lookup. */
  lemma FlipGet<K, V>(d: Dict<K, V>, k: K, v: V)
    requires DistinctKeys(d) && DistinctValues(d)
    ensures Get(Flip(d), v) == Some(k) <==> Get(d, k) == Some(v)
  {
    var f := Flip(d);
    assert DistinctKeys(f) by {
      forall i, j | 0 <= i < j < |f|
        ensures f[i].0 != f[j].0
      {
        assert f[i].0 == d[i].1 && f[j].0 == d[j].1;
      }
    }
    GetDistinct(f, v, k);
    GetDistinct(d, k, v);
    if (v, k) in f {
      var i :| 0 <= i < |f| && f[i] == (v, k);
      assert d[i] == (k, v);
    }
    if (k, v) in d {
      var i :| 0 <= i < |d| && d[i] == (k, v);
      assert f[i] == (v, k);
    }
  }

  /** With distinct values, swapping gives the inverse map: v maps to k
      exactly when k mapped to v, and swapping again restores the dict. */
  lemma SwapInverse<K, V>(d: Dict<K, V>)
    requires DistinctKeys(d) && DistinctValues(d)
    ensures forall k, v :: Get(Swap(d), v) == Some(k) <==> Get(d, k) == Some(v)
    ensures Swap(Swap(d)) == d
  {
    SwapIsFlip(d);
    forall k, v
      ensures Get(Swap(d), v) == Some(k) <==> Get(d, k) == Some(v)
    {
      FlipGet(d, k, v);
    }
    var f := Flip(d);
    assert DistinctValues(f) by {
      forall i, j | 0 <= i < j < |f|
        ensures f[i].1 != f[j].1
      {
        assert f[i].1 == d[i].0 && f[j].1 == d[j].0;
      }
    }
    SwapIsFlip(f);
    FlipFlip(d);
  }

  /** The printed example: {"a": 1, "b": 2, "c": 3} swaps to {1: "a", 2: "b", 3: "c"}. */
  lemma SwapExample()
    ensures Swap([("a", 1), ("b", 2), ("c", 3)]) == [(1, "a"), (2, "b"), (3, "c")]
  {
    SwapIsFlip([("a", 1), ("b", 2), ("c", 3)]);
  }

  /** `{x: x**2 for x in range(n)}` maps exactly 0..n-1, each to its square,
      in increasing key order. */
lemma SquaresDictSpec(n: nat, x: int)
    ensures SquaresDict(n) == SquareItems(n)
    ensures Get(SquaresDict(n), x) == if 0 <= x < n then Some(x * x) else None
  {
    SquaresDictIsItems(n);
    SquareItemsGet(n, x);
  }

  /** The comprehension's keys are fresh, so it is exactly its items. */
  lemma SquaresDictIsItems(n: nat)
    ensures SquaresDict(n) == SquareItems(n)
  {
    var items := SquareItems(n);
    SetAllFresh([], items);
    assert [] + items == items;
  }

  /** Looking up x among the items (i, i * i) for i < n. */
  lemma SquareItemsGet(n: nat, x: int)
    ensures Get(SquareItems(n), x) == if 0 <= x < n then Some(x * x) else None
  {
    var items := SquareItems(n);
    if 0 <= x < n {
      var sq := x * x;
      assert items[x] == (x, sq);
      GetDistinct(items, x, sq);
    } else {
      assert forall i :: 0 <= i < |items| ==> Keys(items)[i] == i;
      assert x !in Keys(items);
    }
  }
}

=== FILE: results.dfy ===
/** Failure-carrying values used to model Python's raise-or-return: a function
    that may raise returns `Err(exception)` instead, one that returns normally
    returns `Ok(value)`. */
module Results {

  datatype Option<T> = None | Some(value: T)

  /** The outcome of a call that returns a value or raises an exception. */
  datatype Result<T, E> = Ok(value: T) | Err(error: E)

  /** The outcome of a call that returns nothing useful or raises. */
  datatype Outcome<E> = Pass | Fail(error: E)
}

=== FILE: text.dfy ===
/** Text helpers: prefixes, and decimal text for integers: what `str(n)`
    prints for an `int`, what `str.isdigit` accepts, and what `int(text)`
    parses. Only ASCII digits are
    modelled (Python also accepts other Unicode decimal digits, surrounding
    whitespace and `_` separators in `int()`). */
module Text {
  import opened Results

  predicate StartsWith(s: string, prefix: string) {
    |prefix| <= |s| && s[..|prefix|] == prefix
  }

  predicate IsDigit(c: char) {
    '0' <= c <= '9'
  }

  predicate AllDigits(s: string) {
    forall i :: 0 <= i < |s| ==> IsDigit(s[i])
  }

  /** `str.isdigit()`: the text is non-empty and every character is a digit. */
  predicate IsDigits(s: string) {
    |s| > 0 && AllDigits(s)
  }

  function DigitChar(d: nat): (c: char)
    requires d < 10
    ensures IsDigit(c)
  {
    (d + '0' as int) as char
  }

  function DigitValue(c: char): (d: nat)
    requires IsDigit(c)
    ensures d < 10
  {
    c as int - '0' as int
  }

  /** `str(n)` for a non-negative int: most significant digit first, no leading zeros. */
  function NatToDecimal(n: nat): (s: string)
    ensures IsDigits(s)
    ensures |s| > 1 ==> s[0] != '0'
  {
    if n < 10 then [DigitChar(n)] else NatToDecimal(n / 10) + [DigitChar(n % 10)]
  }

  /** `str(i)` for any int: a minus sign in front of negative numbers. */
  function IntToDecimal(i: int): string {
    if i < 0 then "-" + NatToDecimal(-i) else NatToDecimal(i)
  }

  /** The value of a string of digits read most significant first. */
  function DigitsValue(s: string): nat
    requires AllDigits(s)
  {
    if |s| == 0 then 0 else DigitsValue(s[..|s| - 1]) * 10 + DigitValue(s[|s| - 1])
  }

  /** `int(text)` restricted to an optional sign followed by ASCII digits;
      anything else is the `ValueError` case, modelled as `None`. */
  function ParseInt(s: string): (r: Option<int>)
    ensures r.Some? <==> IsDigits(s) || (|s| > 1 && (s[0] == '-' || s[0] == '+') && IsDigits(s[1..]))
    ensures IsDigits(s) ==> r == Some(DigitsValue(s))
    ensures |s| > 1 && s[0] == '-' && IsDigits(s[1..]) ==> r == Some(-(DigitsValue(s[1..]) as int))
    ensures |s| > 1 && s[0] == '+' && IsDigits(s[1..]) ==> r == Some(DigitsValue(s[1..]))
  {
    if IsDigits(s) then Some(DigitsValue(s))
    else if |s| > 1 && s[0] == '-' && IsDigits(s[1..]) then Some(-(DigitsValue(s[1..]) as int))
    else if |s| > 1 && s[0] == '+' && IsDigits(s[1..]) then Some(DigitsValue(s[1..]))
    else None
  }

  lemma DigitRoundTrip(d: nat)
    requires d < 10
    ensures DigitValue(DigitChar(d)) == d
  {
  }

  /** Reading back the digits `str(n)` prints gives `n`. */
  lemma {:induction false} NatToDecimalRoundTrip(n: nat)
    ensures DigitsValue(NatToDecimal(n)) == n
  {
    var s := NatToDecimal(n);
    if n < 10 {
      assert s[..|s| - 1] == [];
      DigitRoundTrip(n);
    } else {
      var p := NatToDecimal(n / 10);
      assert s[..|s| - 1] == p;
      NatToDecimalRoundTrip(n / 10);
      DigitRoundTrip(n % 10);
    }
  }

  /** `int(str(i)) == i` for every int. */
  lemma IntToDecimalRoundTrip(i: int)
    ensures ParseInt(IntToDecimal(i)) == Some(i)
  {
    if i < 0 {
      var s := IntToDecimal(i);
      assert s[1..] == NatToDecimal(-i);
      assert !IsDigit(s[0]);
      NatToDecimalRoundTrip(-i);
    } else {
      NatToDecimalRoundTrip(i);
    }
  }

}

=== FILE: todo_list.dfy ===
/** The to-do list script: a list of task strings with a menu to display all
    tasks, add a task that is not yet listed, remove a listed task, or quit.
    Each menu action is a transition on the list together with the lines it
    prints; loading and saving the list as JSON is not modelled. */
module TodoList {
  import opened Results
  import opened Numbering

  type Tasks = seq<string>

  /** The invariant the add branch keeps: no task is listed twice. */
  predicate NoDuplicates(ts: Tasks) {
    forall i, j :: 0 <= i < j < |ts| ==> ts[i] != ts[j]
  }

  /** The list after one menu action and the lines that action prints. */
  datatype Step = Step(tasks: Tasks, output: seq<string>)

  /** The menu entries: "1" display, "2" add, "3" remove, "4" exit, anything else. */
  datatype Command = DisplayAll | Add(task: string) | Remove(task: string) | Exit | Unrecognized

  /** The display lines numbered from `number` on, one per task in list order. */
  function DisplayFrom(ts: Tasks, number: nat): (lines: seq<string>)
    ensures |lines| == |ts|
    ensures forall i :: 0 <= i < |ts| ==> lines[i] == Label(number + i, ts[i] + "\n")
  {
    if |ts| == 0 then [] else [Label(number, ts[0] + "\n")] + DisplayFrom(ts[1..], number + 1)
  }

  /** Choice "1": every task printed as "{n}. {task}\n", numbered from 1. */
  function Display(ts: Tasks): seq<string> {
    DisplayFrom(ts, 1)
  }

  /** Choice "2": append the task unless it is already listed. */
  function AddTask(ts: Tasks, task: string): (s: Step)
    ensures task in s.tasks
    ensures |s.output| > 0 && s.output[|s.output| - 1] == task + " added"
  {
    if task !in ts then Step(ts + [task], [task + " added"])
    else Step(ts, ["already there", task + " added"])
  }

  /** Position of the first occurrence of `task` (Python's `list.index`). */
  function IndexOf(ts: Tasks, task: string): (i: nat)
    requires task in ts
    ensures i < |ts| && ts[i] == task && task !in ts[..i]
  {
    if ts[0] == task then 0
    else
      var i := IndexOf(ts[1..], task);
      assert ts[..i + 1] == [ts[0]] + ts[1..][..i];
      i + 1
  }

  /** Choice "3": pop the first occurrence of the task if it is listed. */
  function RemoveTask(ts: Tasks, task: string): (s: Step)
    ensures task !in ts ==> s.tasks == ts
    ensures task in ts ==> |s.tasks| == |ts| - 1
    ensures task in ts ==> s.output == [task + " removed"]
    ensures task !in ts ==> s.output == ["already not there"]
  {
    if task in ts then
      var i := IndexOf(ts, task);
      Step(ts[..i] + ts[i + 1..], [task + " removed"])
    else Step(ts, ["already not there"])
  }

  /** One pass of the menu loop for a choice other than "4". */
  function Apply(ts: Tasks, cmd: Command): (s: Step)
    requires !cmd.Exit?
    ensures cmd.DisplayAll? || cmd.Unrecognized? ==> s.tasks == ts
  {
    match cmd
    case DisplayAll => Step(ts, Display(ts))
    case Add(t) => AddTask(ts, t)
    case Remove(t) => RemoveTask(ts, t)
    case Unrecognized => Step(ts, ["type smth normal"])
  }

  /** The menu loop over a sequence of choices; "4" quits, ignoring the rest. */
  function Run(ts: Tasks, cmds: seq<Command>): Step
    decreases |cmds|
  {
    if |cmds| == 0 || cmds[0].Exit? then Step(ts, [])
    else
      var s := Apply(ts, cmds[0]);
      var rest := Run(s.tasks, cmds[1..]);
      Step(rest.tasks, s.output + rest.output)
  }

  /** Display numbers the tasks 1..n in list order: line i reads back as
      number i + 1 and the i-th task. */
  lemma DisplayNumbersInOrder(ts: Tasks)
    ensures |Display(ts)| == |ts|
    ensures forall i :: 0 <= i < |ts| ==> ParseLabel(Display(ts)[i]) == Some((i + 1, ts[i] + "\n"))
  {
    forall i | 0 <= i < |ts|
      ensures ParseLabel(Display(ts)[i]) == Some((i + 1, ts[i] + "\n"))
    {
      LabelRoundTrip(i + 1, ts[i] + "\n");
    }
  }

  /** Adding an absent task appends it: one more task, earlier tasks unchanged. */
  lemma AddAbsentAppends(ts: Tasks, task: string)
    requires task !in ts
    ensures |AddTask(ts, task).tasks| == |ts| + 1
    ensures AddTask(ts, task).tasks[..|ts|] == ts
    ensures AddTask(ts, task).tasks[|ts|] == task
    ensures AddTask(ts, task).output == [task + " added"]
  {
    assert (ts + [task])[..|ts|] == ts;
  }

  /** Adding a listed task leaves the list unchanged; the script still prints
      "{task} added" after "already there". */
  lemma AddPresentUnchanged(ts: Tasks, task: string)
    requires task in ts
    ensures AddTask(ts, task).tasks == ts
    ensures AddTask(ts, task).output == ["already there", task + " added"]
  {
  }

  /** Adding twice is adding once. */
  lemma AddIdempotent(ts: Tasks, task: string)
    ensures AddTask(AddTask(ts, task).tasks, task).tasks == AddTask(ts, task).tasks
  {
  }

  /** Add keeps the no-duplicates invariant. */
  lemma AddPreservesNoDuplicates(ts: Tasks, task: string)
    requires NoDuplicates(ts)
    ensures NoDuplicates(AddTask(ts, task).tasks)
  {
  }

  /** Removing a listed task deletes exactly its first occurrence: the tasks
      before it and the tasks after it keep their order. */
  lemma RemoveDeletesFirstOccurrence(ts: Tasks, task: string)
    requires task in ts
    ensures exists i :: 0 <= i < |ts| && ts[i] == task && task !in ts[..i]
                        && RemoveTask(ts, task).tasks == ts[..i] + ts[i + 1..]
    ensures multiset(RemoveTask(ts, task).tasks) + multiset{task} == multiset(ts)
  {
    var i := IndexOf(ts, task);
    assert ts == ts[..i] + [ts[i]] + ts[i + 1..];
  }

  /** Removing an absent task leaves the list unchanged and says so. */
  lemma RemoveAbsentUnchanged(ts: Tasks, task: string)
    requires task !in ts
    ensures RemoveTask(ts, task) == Step(ts, ["already not there"])
  {
  }

  /** Remove keeps the no-duplicates invariant, and afterwards the task is gone. */
  lemma RemovePreservesNoDuplicates(ts: Tasks, task: string)
    requires NoDuplicates(ts)
    ensures NoDuplicates(RemoveTask(ts, task).tasks)
    ensures task !in RemoveTask(ts, task).tasks
  {
    if task in ts {
      var i := IndexOf(ts, task);
      var r := RemoveTask(ts, task).tasks;
      assert r == ts[..i] + ts[i + 1..];
      forall a, b | 0 <= a < b < |r|
        ensures r[a] != r[b]
      {
        var a' := if a < i then a else a + 1;
        var b' := if b < i then b else b + 1;
        assert r[a] == ts[a'] && r[b] == ts[b'];
      }
      forall k | 0 <= k < |r|
        ensures r[k] != task
      {
        var k' := if k < i then k else k + 1;
        assert r[k] == ts[k'];
      }
    }
  }

  /** Removing a freshly added task restores the original list. */
  lemma RemoveUndoesAdd(ts: Tasks, task: string)
    requires task !in ts
    ensures RemoveTask(AddTask(ts, task).tasks, task).tasks == ts
  {
    var t := ts + [task];
    var i := IndexOf(t, task);
    assert i == |ts|;
    assert t[..i] == ts;
  }

  /** Every run of the menu from a list without duplicates keeps it that way. */
  lemma {:induction false} RunPreservesNoDuplicates(ts: Tasks, cmds: seq<Command>)
    requires NoDuplicates(ts)
    ensures NoDuplicates(Run(ts, cmds).tasks)
    decreases |cmds|
  {
    if |cmds| > 0 && !cmds[0].Exit? {
      var s := Apply(ts, cmds[0]);
      if cmds[0].Add? {
        AddPreservesNoDuplicates(ts, cmds[0].task);
      } else if cmds[0].Remove? {
        RemovePreservesNoDuplicates(ts, cmds[0].task);
      }
      RunPreservesNoDuplicates(s.tasks, cmds[1..]);
    }
  }
}
